=== FILE: README.md ===
# Simple to-do app: a Dafny model of its state logic

The application is a single-page to-do list. Tasks are filed by project and
by calendar date, and the page keeps everything in one record in
`localStorage`. This project models the logic behind the page, which lives in
`app.js`:

- **Loading the stored record.** `loadStore` and the three normalisers turn
  whatever was stored into a valid store. The input may be missing, unparsable,
  the legacy bare array, the legacy `todosByDate` object, or the current
  `{projects, selectedProjectId}` shape. Every path gives at least one
  project, a selection that names one of them, and tasks with trimmed,
  non-empty text.
- **Date keys.** `toDateKey`, `addDays` and `getRecentDays` work on
  `YYYY-MM-DD` strings and the proleptic Gregorian calendar.
- **Task-list mutations** on the list of the selected project and date: add,
  toggle, rename, delete and clear completed. Also the filter view and the
  remaining count.
- **Project rules.** Creation and renaming refuse blank names and names
  already taken, ignoring letter case. A selected id that names no project
  falls back to the first project.
- **The two summaries.** The weekly completion bars with their overall rate,
  and the recently completed tasks of the three days before the selected date.
- **The page state and its event handlers.** The four globals become one
  `AppState` record. Each handler becomes a function from the state before the
  event to the state after it, together with the record `saveStore` wrote
  during the event, if any.

Modules:

- `Json`: a parsed JSON value, with JavaScript truthiness and `typeof`.
- `Text`: `trim` and case-insensitive name comparison.
- `Calendar`: Gregorian day numbers and `AddDays`.
- `DateKey`: formats, parses and shifts date keys.
- `Todos`: tasks and list operations.
- `Projects`: projects, the store, selection and naming rules.
- `Normalize`: the normalisers, `loadStore` and the save/load round trip.
- `Stats`: the two summaries.
- `App`: the state and its handlers.

Effects and non-determinism are parameters:

- **Ids:** `makeId` becomes a function `mint` from the place an id is minted to a string.
- **Clock:** `Date.now()` becomes `now`, and today's date becomes `today`.
- **Dialogs:** the answer to `prompt` becomes an `Option<string>`, where `None` means cancelled.
- **Storage:** what `localStorage` plus `JSON.parse` produced becomes a `Stored` value.

## Model

| member | source | states |
|---|---|---|
| Json.TruthyObjectIsArrayOrRecord | app.js:84 | `project && typeof project === "object"` holds exactly for arrays and plain objects |
| Json.PlainObjectTest | app.js:70 | the guard of `normalizeTodosByDate` lets through exactly the plain objects |
| Text.Trim | app.js:62 | the result has no whitespace at either end; it is empty iff the input is all whitespace; otherwise it is the input between the first and the last non-whitespace character |
| Text.TrimTrimmed | app.js:62 | trimming an already trimmed string changes nothing |
| Text.TrimIdempotent | app.js:88-89 | trimming twice is trimming once |
| Text.Lower | app.js:337-339 | `toLowerCase` keeps the length and maps each character independently |
| Text.CaseVariantsCollide | app.js:336-339 | "Work" and "work" count as the same name; "Work" and "Home" do not |
| Calendar.FromDayNumber | app.js:36-37 | every day number, before or after the epoch, is the day number of a valid date, and this gives that date |
| Calendar.FromDayNumberOfDate | app.js:36-37 | converting a valid date to its day number and back gives the same date |
| Calendar.DayNumberInjective | app.js:36-37 | two valid dates with the same day number are equal |
| Calendar.AddDays | app.js:35-39 | `setDate(getDate() + days)` gives a valid date exactly `days` days later, carrying across months and years |
| Calendar.AddDaysZero | app.js:35-39 | moving a date by zero days leaves it unchanged |
| Calendar.AddDaysCompose | app.js:35-39 | moving by `a` and then `b` days is moving by `a + b` days |
| Calendar.AddDaysInverse | app.js:35-39 | moving forward by `k` days and back by `k` days returns the original date |
| Calendar.AddOneDay | app.js:37 | moving by one day is the calendar's next day: next day of the month, first of the next month, or New Year |
| Calendar.NextDayOfAddDays | app.js:37 | one more day after moving `k` days is moving `k + 1` days |
| Calendar.ShortMoveBack | app.js:37 | moving back by at most 365 days lands in the same year or the year before |
| Calendar.NearbyYear | app.js:37 | a day number at most 365 days before one in a given year lies in that year or the one before |
| Calendar.LeapFebruary | app.js:37 | the literal dates 2024-02-28 and 2000-02-28 are followed by February 29 |
| Calendar.CommonFebruary | app.js:37 | the literal dates 2023-02-28 and 2100-02-28 are followed by March 1 |
| Calendar.YearBoundary | app.js:37 | the literal date 2024-12-31 is followed by 2025-01-01 |
| DateKey.KeyCharacters | app.js:24-29 | the key of a date with a four-digit year has exactly ten characters: four year digits, '-', two month digits, '-', two day digits |
| DateKey.FormatKey | app.js:24-29 | for a year from 1000 to 9999 the key has the `DDDD-DD-DD` shape |
| DateKey.ParseKey | app.js:36 | a key that parses has the `DDDD-DD-DD` shape and names a valid date |
| DateKey.ParseFormat | app.js:24-39 | parsing a formatted key gives back its date, for years 1000 to 9999 |
| DateKey.FormatParse | app.js:24-39 | formatting a parsed key gives back the same string, for years from 1000 up |
| DateKey.FormatKeyInjective | app.js:24-29 | two dates with four-digit years have the same key only if they are the same date |
| DateKey.AddDaysKey | app.js:35-39 | a key that does not parse becomes "NaN-NaN-NaN"; otherwise the result is the key of the parsed date moved by `k` days |
| DateKey.AddDaysKeyZero | app.js:35-39 | `addDays(key, 0)` returns a canonical key unchanged |
| DateKey.AddDaysKeyCompose | app.js:35-39 | moving a key twice is moving it once by the sum, while years stay four-digit |
| DateKey.LeapDayKey | app.js:35-39 | `addDays("2024-02-28", 1)` is "2024-02-29" |
| DateKey.MissingLeapDayKey | app.js:36 | "2023-02-29" names no date, so it does not parse |
| DateKey.UnpaddedKeyIsInvalid | app.js:35-39 | `addDays("2024-1-5", 1)` is "NaN-NaN-NaN", because the key is not in `YYYY-MM-DD` form |
| DateKey.RecentDays | app.js:195-197 | `n` keys, where entry `i` is the base key moved back `i` days |
| DateKey.RecentDaysStartsAtBase | app.js:195-197 | the first entry for a canonical key is the key itself |
| Todos.Keep | app.js:184-185 | the filter keeps exactly the elements that satisfy the predicate, in order, as a subsequence, each with its multiplicity in the input |
| Todos.SubsequenceOfSelf | app.js:186 | a list is an order-preserving sublist of itself, so the "all" view is one |
| Todos.Visible | app.js:183-187 | "all" gives the list itself; every view is a subsequence of the list; "active" keeps every uncompleted task with its multiplicity and no completed one; "completed" the reverse |
| Todos.RemainingCount | app.js:190 | the remaining count is at most the list length, and it is zero iff every task is completed |
| Todos.RemainingPlusCompleted | app.js:189-193 | the remaining count plus the completed view's length equals the list length |
| Todos.KeepWellFormed | app.js:183-187 | the filter views keep a well-formed list well-formed |
| Todos.NewTodo | app.js:156-163 | a new task is not completed, has no completion time, and is well-formed when its text is trimmed and non-empty |
| Todos.AddTodo | app.js:381-386 | the new task goes first, carrying the given id and text and not completed; the old list follows unchanged |
| Todos.AddWellFormed | app.js:381-386 | adding a task with trimmed, non-empty text keeps the list well-formed |
| Todos.Toggle | app.js:389-396 | only the completion flag flips; the completion time is `now` when the task becomes completed and `null` otherwise |
| Todos.ToggleTodo | app.js:388-402 | same length and order; tasks with other ids are unchanged; tasks with the id are flipped as above |
| Todos.ToggleUnknownId | app.js:388-402 | toggling an id not in the list gives the same list |
| Todos.ToggleWellFormed | app.js:388-402 | toggling keeps a list well-formed when the clock reading is not zero |
| Todos.ToggleTwice | app.js:388-402 | toggling twice restores every completion flag, restores uncompleted tasks exactly, and stamps re-completed tasks with the second reading |
| Todos.RenameTodo | app.js:404-422 | nothing is saved iff the id is absent or the trimmed input is blank; otherwise only the text of the tasks with that id changes, to the trimmed input, each in its place |
| Todos.RenameWellFormed | app.js:404-422 | renaming keeps the list well-formed, and keeps every id and completion flag in place |
| Todos.DeleteTodo | app.js:424-429 | an order-preserving sublist holding exactly the tasks with other ids, every copy of each |
| Todos.ClearCompleted | app.js:431-436 | the result is exactly the "active" view: the tasks that are not completed, every copy of each, in order |
| Projects.PlaceholderNamesWellFormed | app.js:48-54 | the default and the unnamed-project names are non-empty and trimmed |
| Projects.FindProject | app.js:166 | `find` gives the first position with the id, or the length when there is none |
| Projects.SelectedIndex | app.js:165-171 | the first project with the selected id, or the first project when no project has it |
| Projects.Lookup | app.js:173-176 | `todosByDate[key] \|\| []`: the stored list when the key is present, otherwise empty |
| Projects.CreateProject | app.js:333-355 | refused as blank iff the trimmed name is empty; refused as a duplicate iff the name is non-blank and taken ignoring case; otherwise one project with the trimmed name and no tasks is appended |
| Projects.RenameProject | app.js:357-379 | the same refusals, except that a name held by a project with the renamed project's id does not count as taken; on success only that project's name changes |
| Projects.CreateKeepsNamesUnique | app.js:333-355 | creating a project keeps names unique, ignoring case, and the new project is well-formed and findable by its id |
| Projects.RenameKeepsNamesUnique | app.js:357-379 | renaming keeps names unique, ignoring case, when no other project shares the renamed project's id |
| Projects.RenameProjectAt | app.js:357-379 | the rename with the intended duplicate test: only the renamed project itself is exempt; same refusals and the same single-name change otherwise |
| Projects.RenameAgreesWhenIdUnique | app.js:368-370 | when no other project shares the renamed project's id, the id test and the position test give the same outcome |
| Projects.RenameAtKeepsNamesUnique | app.js:357-379 | the intended rename keeps names unique, ignoring case, for every store |
| Projects.RenameRepeatedIdBreaksUniqueness | app.js:368-370 | two projects sharing the id "a" named "X" and "Y" have unique names, renaming the first to "y" is accepted, and afterwards two names collide |
| Projects.CreateKeepsWellFormed | app.js:333-355 | after creation every project is still well-formed |
| Projects.RenameKeepsWellFormed | app.js:357-379 | renaming keeps every project well-formed and every id in its place |
| Projects.CaseVariantRefused | app.js:336-342 | with a project named "Work", creating "work" is refused as a duplicate |
| Normalize.NormalizeItem | app.js:59-66 | an element is kept iff it is truthy, its text is a string and the trimmed text is not empty; a kept task has the trimmed text, `Boolean(completed)`, its string id or a minted one, and a completion time only when completed and truthy |
| Normalize.FilterMapSelects | app.js:58-66 | the filter–map–filter chain keeps exactly the positions its rule accepts, in ascending order, and outputs the rule's values there |
| Normalize.FilterMapKeepsAll | app.js:58-66 | when the rule accepts every element, the chain is a plain map |
| Normalize.NormalizeList | app.js:58-66 | the output is no longer than the input and every task in it is well-formed |
| Normalize.NormalizeListSelects | app.js:58-66 | the output holds, in input order, the normalised forms of exactly the elements with non-blank string text |
| Normalize.NormalizeItems | app.js:56-67 | a non-array gives no tasks; an array gives its normalised list |
| Normalize.NormalizeTodosByDate | app.js:69-78 | anything but a plain object gives the empty map; a plain object keeps exactly its keys, with non-arrays becoming empty lists and every list well-formed |
| Normalize.NormalizeProject | app.js:85-92 | a well-formed project: its string id or a minted one; its trimmed name, or the unnamed-project name when the name is missing or blank; the date keys of its `todosByDate` object, each holding the normalised list that `normalizeTodosByDate` gives for it with this project's ids |
| Normalize.NormalizeProjectList | app.js:83-92 | no longer than the input, and every project in it is well-formed |
| Normalize.NormalizeProjectListSelects | app.js:83-92 | the output holds, in input order, the normalised project of exactly the array or object elements, each normalised with its own position |
| Normalize.NormalizeProjects | app.js:80-93 | a non-array gives no projects; an array gives the normalised list of its elements, all well-formed |
| Normalize.ArrayBecomesUnnamedProject | app.js:84-91 | an array stored where a project belongs passes the object test and becomes an unnamed project with no tasks |
| Normalize.DefaultProject | app.js:48-54 | the default project is well-formed and has no tasks |
| Normalize.StoreToJson | app.js:151-154 | the saved record is an object with exactly the keys `projects` and `selectedProjectId`, holding the saved project array and the selected id; it has no `todosByDate` key |
| Normalize.SingleProjectStore | app.js:108-132 | the one-project stores of the legacy paths are valid and hold the given lists under the default name |
| Normalize.FreshStore | app.js:97-104 | the store of a first start is valid and holds one project with no tasks |
| Normalize.LoadStore | app.js:95-149 | always a valid store; a missing, malformed or non-object record gives a fresh store; a bare array is today's list of one default project; the legacy object becomes the default project's lists; otherwise the normalised projects (or one default project) are used, and the stored selection is kept exactly when some project has that id |
| Normalize.TaskRoundTrip | app.js:59-66 | normalising a saved well-formed task gives back that task |
| Normalize.ListRoundTrip | app.js:56-67 | normalising a saved well-formed list gives back that list |
| Normalize.DatesRoundTrip | app.js:69-78 | normalising a saved date map gives back that map |
| Normalize.DateListsRoundTrip | app.js:73-75 | a saved date map has the same keys, and each key's list normalises back to itself |
| Normalize.ProjectRoundTrip | app.js:85-92 | normalising a saved well-formed project gives back that project |
| Normalize.ProjectListRoundTrip | app.js:80-93 | normalising a saved project array gives back the projects |
| Normalize.SaveLoadRoundTrip | app.js:95-154 | loading what `saveStore` wrote from a valid store gives back that store |
| Normalize.LoadIdempotent | app.js:95-154 | saving a loaded store and loading it again gives back the same store |
| Stats.Percent | app.js:255 | zero for an empty day; otherwise the nearest whole percentage, with halves rounded up |
| Stats.PercentBounds | app.js:255 | for `done <= total` the percentage is at most 100, exactly 100 when all are done, and 0 when none are |
| Stats.DoneCount | app.js:253 | the completed count plus the remaining count is the list length |
| Stats.DayStatOf | app.js:252-255 | one bar: its key, done at most total, total equal to the list length, percentage at most 100 and zero for an empty day |
| Stats.SumDoneAtMostTotal | app.js:257-258 | the week's completed total never exceeds its task total |
| Stats.WeekWindow | app.js:245 | seven keys, oldest first, where bar `i` is the selected date moved by `i - 6` days |
| Stats.WeekEndsAtSelected | app.js:245 | for a canonical key the last bar is the selected date |
| Stats.WeekConsecutive | app.js:245 | for a selected date in the years 1001 to 9999, each bar's date is the day after the previous bar's |
| Stats.WeeklyStats | app.js:244-284 | seven bars in date order, one per window key; totals are the sums of the bars; completed at most total; the rate is their rounded percentage, at most 100 |
| Stats.Totals | app.js:257-258 | the running sums equal the sums over all bars |
| Stats.CompletedOn | app.js:221-222 | the completed tasks filed `offset` days before the selected date, in their list order, each with its multiplicity in that list |
| Stats.Tag | app.js:224-238 | one entry per task, in the same order, entry `i` being task `i` tagged with the offset |
| Stats.Gather | app.js:220-239 | collecting the lists of days 1 to `days`, oldest offset last: every entry comes from its day's list, every task of those lists appears, and offsets never decrease |
| Stats.GatherEmptyIff | app.js:241 | nothing is collected iff every one of the days has an empty list |
| Stats.RecentCompleted | app.js:216-242 | every entry is a completed task of a day 1 to `days` before the selected date; every such task appears; entries are ordered by offset; zero days give nothing, and `days` days are the first `days - 1` days followed by day `days`'s completed tasks |
| Stats.HistoryEmptyIff | app.js:241 | the empty-state message shows iff none of the days has a completed task |
| Stats.HistorySkipsSelected | app.js:220-221 | for a selected date in the years 1001 to 9999, no day 1 to 365 days back has the selected date's key |
| App.Resolve | app.js:165-171 | an unknown selected id is replaced by the first project's id; nothing else changes, and the selected position is unchanged |
| App.Snapshot | app.js:151-154 | the saved store holds the page's projects and its selected id |
| App.CurrentList | app.js:173-176 | the selected project's list for the selected date, or the empty list when that date has no key |
| App.VisibleList | app.js:183-187 | "all" shows the current date's list; every view is a subsequence of it; "active" shows exactly its uncompleted tasks and "completed" exactly its completed ones, each with its multiplicity |
| App.History | app.js:216-242 | the page's three-day history: every entry is a completed task of the selected project filed 1 to 3 days before the selected date, and every such task appears |
| App.UpdateCurrentList | app.js:178-181 | only the current date's list of the selected project is replaced, and the key is written even for an empty list |
| App.UpdateKeepsValid | app.js:178-181 | replacing the current list by a well-formed list keeps the state valid |
| App.Init | app.js:19-22 | start-up: the loaded projects, today's key, the "all" filter, a valid selection, and an immediate save |
| App.InitKeepsSelection | app.js:22 | a non-empty loaded selection is kept at start-up |
| App.SubmitProject | app.js:438-443 | a refused name changes and saves nothing; an accepted one appends the project, selects it and saves |
| App.SelectProject | app.js:445-449 | the picked id is saved as given; the state then selects it, or the first project when it is unknown |
| App.RenameSelectedProject | app.js:357-379 | a cancelled prompt or a name refused by the id-based duplicate test saves nothing; an accepted name changes only the selected project's name and saves |
| App.SubmitTodo | app.js:453-461 | a blank input does nothing; otherwise a task with the trimmed text goes first in the current list, and the store is saved |
| App.ToggleClicked | app.js:388-402 | the current list becomes its toggled form, and the store is saved |
| App.DeleteClicked | app.js:424-429 | afterwards no task in the current list has the id, and the store is saved |
| App.ClearCompletedClicked | app.js:431-436 | afterwards the current list holds exactly its uncompleted tasks, and the store is saved |
| App.RenameTodoClicked | app.js:404-422 | an unknown id, a cancelled prompt or a blank answer saves nothing; otherwise the state is the old one with only the current list replaced by its renamed form, and it is saved |
| App.SelectDate | app.js:463-466 | an empty value selects today; nothing is saved and no list changes |
| App.SetFilter | app.js:470-477 | only the filter changes; nothing is saved |
| App.SubmitProjectKeepsValid | app.js:333-355 | creating a project keeps the state valid |
| App.SelectProjectKeepsValid | app.js:445-449 | picking any id keeps the state valid |
| App.RenameSelectedKeepsValid | app.js:357-379 | renaming the selected project keeps the state valid |
| App.SubmitTodoKeepsValid | app.js:453-461 | the task form keeps the state valid |
| App.ToggleKeepsValid | app.js:388-402 | toggling keeps the state valid, given a non-zero clock reading |
| App.RemovalsKeepValid | app.js:424-436 | deleting and clearing keep the state valid |
| App.RenameTodoKeepsValid | app.js:404-422 | renaming a task keeps the state valid |
| App.ViewHandlersKeepValid | app.js:463-477 | the date picker and the filter buttons keep the state valid |
| App.HandlersKeepNamesUnique | app.js:333-379 | the project handlers keep project names unique, ignoring case, when no other project shares the selected project's id |

Where the code and the design description differ, the model follows the code:

- Loading never removes duplicate project names. Uniqueness is only enforced
  when a project is created or renamed, so `NamesUnique` is a property the
  handlers preserve, not part of `ValidState`.
- A completed task may carry a `null` completion time. Loading keeps a
  stored time only when it is truthy.
- The project picker saves the picked id before rendering resolves it. The
  saved record can therefore name a project that does not exist; a later
  load falls back to the first project.
- The rename-project button looks up the selected project first. So a
  cancelled or refused rename still resolves an unknown selection.
- The rename-project duplicate test exempts every project whose id equals the
  renamed project's id, not only the renamed project. The handlers use this
  test as written; see "## Findings".

## Left out

- Rendering, the DOM, focus handling, `alert` texts and the Korean display strings; only the two built-in project names are kept. Also `getDayOffsetLabel` and the `MM-DD` label slice.
- Storage I/O and JSON text parsing. The model starts from the parsed value, or from the fact that reading or parsing failed. `JSON.stringify` is modelled by the value it denotes.
- `makeId`'s UUIDs, `Date.now()` and `Math.random()`. They become the injected `mint` and the `now` parameter, so two different sites can receive equal ids, as with any id source.
- Time zones and daylight-saving time. Dates are calendar days, and `today` is a parameter.
- `new Date(...)` leniency beyond the ECMAScript date-time string format. Such keys are treated as invalid, and so are years outside 0–9999.
- DateKey.ParseKey: accepts only the `YYYY-MM-DD` form. The other forms of the ECMAScript date-time string format are valid dates in a conforming engine but invalid here: `YYYY`, `YYYY-MM` and expanded `±YYYYYY` years. Keys reach `addDays` only from `toDateKey` and from the date picker, which yields "" or `YYYY-MM-DD`, so those forms never arise in the app.
- Calendar.AddDays: unbounded. `setDate` past the Date time-value range (±8.64e15 ms, 100,000,000 days either side of 1970-01-01) gives an invalid date, which `toDateKey` formats as "NaN-NaN-NaN"; here every move gives a valid date. The app moves a picked date by −6 to 0 days only, far inside the range.
- DateKey.AddDaysKey: inherits both gaps above. `addDays("2024-03", 1)` gives "2024-03-02" in the source and "NaN-NaN-NaN" here, and a move beyond the Date range gives a valid key here instead of "NaN-NaN-NaN".
- DateKey.ParseFormat: proved only for years 1000–9999. `String(year)` has no padding, so other years do not round-trip through a four-digit key.
- The `__proto__` key of a stored object, which `JSON.parse` and object property assignment treat specially.
- Stats.Percent: computed in exact rational arithmetic. `Math.round` on the double `done / total * 100` can land below an exact half and round down where the exact value rounds up.
- Text.Lower: ASCII letters only. `toLowerCase` also folds other scripts.
- Todos.ToggleWellFormed: needs a clock reading other than zero. A zero `Date.now()` would store a falsy completion time that loading turns into `null`.
- The filter value: any value other than "active" or "completed" behaves as "all", so the model has exactly three filters.
- Projects.RenameKeepsNamesUnique: proved only when no other project shares the renamed project's id. Loading does not make ids unique, and the id-based duplicate test lets a collision through otherwise (Projects.RenameRepeatedIdBreaksUniqueness).
- App.HandlersKeepNamesUnique: requires that no other project shares the selected project's id, for the same reason.

## Findings

| source | as written | input that shows it | evidently intended | confidence | as-written member | corrected member |
|---|---|---|---|---|---|---|
| app.js:368-370 | the duplicate test ignores every project whose id equals the renamed project's id; loading keeps repeated stored ids, so two projects can share one | a stored record with two projects of id "a" named "X" and "Y"; rename the first to "y" | ignore only the renamed project itself, so "y" is refused because "Y" exists | not executed | Projects.RenameProject, Projects.RenameRepeatedIdBreaksUniqueness | Projects.RenameProjectAt, Projects.RenameAtKeepsNamesUnique |

=== FILE: app.dfy ===
/**
 The page's state and its event handlers. The four globals become one
 state record; each handler is a function from the state before the event
 to the state after it, together with the record `saveStore` wrote if it
 ran. Rendering matters only through its one side effect: looking up the
 selected project falls back to the first project when the selected id is
 unknown.
 */
module App {
  import opened Json
  import Text
  import opened Todos
  import opened Projects
  import opened Calendar
  import opened DateKey
  import opened Normalize
  import Stats

  /** `store.projects`, `selectedProjectId`, `selectedDate` and `currentFilter`. */
  datatype AppState = AppState(projects: seq<Project>, selectedProjectId: string, selectedDate: string, filter: Filter)

  /** The state after an event, and what `saveStore` wrote during it (`None` if it did not run). */
  datatype Step = Step(state: AppState, saved: Option<Store>)

  /** What `saveStore` writes: the projects, with the current selection copied into the store first. */
  function Snapshot(st: AppState): (r: Store)
    ensures r.projects == st.projects && r.selectedProjectId == st.selectedProjectId
  {
    Store(st.projects, st.selectedProjectId)
  }

  /** The state between events: a valid store whose selection names a project. */
  predicate ValidState(st: AppState) {
    ValidStore(st.projects, st.selectedProjectId)
  }

  /** The side effect of `getSelectedProject`: an unknown selected id is replaced by the first project's. */
  function Resolve(st: AppState): (r: AppState)
    requires |st.projects| > 0
    ensures r.projects == st.projects && r.selectedDate == st.selectedDate && r.filter == st.filter
    ensures HasProject(st.projects, st.selectedProjectId) ==> r == st
    ensures !HasProject(st.projects, st.selectedProjectId) ==> r.selectedProjectId == st.projects[0].id
    ensures HasProject(r.projects, r.selectedProjectId)
    ensures SelectedIndex(r.projects, r.selectedProjectId) == SelectedIndex(st.projects, st.selectedProjectId)
  {
    if HasProject(st.projects, st.selectedProjectId) then st
    else st.(selectedProjectId := st.projects[0].id)
  }

  /** The position of the project `getSelectedProject` returns. */
  function Selected(st: AppState): (i: nat)
    requires |st.projects| > 0
    ensures i < |st.projects|
  {
    SelectedIndex(st.projects, st.selectedProjectId)
  }

  /** `getTodosForDate(selectedDate)`: the selected project's list for the selected date, empty when there is none. */
  function CurrentList(st: AppState): (r: seq<Task>)
    requires |st.projects| > 0
    ensures var m := st.projects[Selected(st)].todosByDate;
      && (st.selectedDate in m ==> r == m[st.selectedDate])
      && (st.selectedDate !in m ==> r == [])
  {
    Lookup(st.projects[Selected(st)].todosByDate, st.selectedDate)
  }

  /**
   What `renderTodos` lists: the current list through the current filter,
   in list order, every copy of each shown task included.
   */
  function VisibleList(st: AppState): (r: seq<Task>)
    requires |st.projects| > 0
    ensures st.filter == All ==> r == CurrentList(st)
    ensures Subsequence(r, CurrentList(st))
    ensures st.filter == Active ==>
      forall t :: multiset(r)[t] == if !t.completed then multiset(CurrentList(st))[t] else 0
    ensures st.filter == Completed ==>
      forall t :: multiset(r)[t] == if t.completed then multiset(CurrentList(st))[t] else 0
  {
    Visible(CurrentList(st), st.filter)
  }

  /**
   The recent-completions panel `renderTodos` draws: the selected project's
   completed tasks of the `HistoryDays` days before the selected date.
   */
  function History(st: AppState): (r: seq<Stats.HistoryEntry>)
    requires |st.projects| > 0
    ensures forall e :: e in r ==> 1 <= e.offset <= Stats.HistoryDays && e.task.completed
    ensures forall e :: e in r ==>
      e.task in Lookup(st.projects[Selected(st)].todosByDate, AddDaysKey(st.selectedDate, -e.offset))
    ensures forall o: int, t: Task ::
      (1 <= o <= Stats.HistoryDays && t.completed
       && t in Lookup(st.projects[Selected(st)].todosByDate, AddDaysKey(st.selectedDate, -o)))
      ==> Stats.HistoryEntry(o, t) in r
  {
    Stats.RecentCompleted(st.projects[Selected(st)].todosByDate, st.selectedDate, Stats.HistoryDays)
  }

  /**
   `setTodosForDate(selectedDate, f(getTodosForDate(selectedDate)))`: the key
   is written even when the new list is empty, and nothing but that one list
   of the selected project changes.
   */
  function UpdateCurrentList(st: AppState, f: seq<Task> -> seq<Task>): (r: AppState)
    requires |st.projects| > 0
    ensures r.selectedProjectId == Resolve(st).selectedProjectId
    ensures r.selectedDate == st.selectedDate && r.filter == st.filter
    ensures |r.projects| == |st.projects| && Selected(r) == Selected(st)
    ensures forall j :: 0 <= j < |st.projects| && j != Selected(st) ==> r.projects[j] == st.projects[j]
    ensures var i := Selected(st);
      && r.projects[i].id == st.projects[i].id && r.projects[i].name == st.projects[i].name
      && r.projects[i].todosByDate == st.projects[i].todosByDate[st.selectedDate := f(CurrentList(st))]
    ensures CurrentList(r) == f(CurrentList(st))
  {
    var s := Resolve(st);
    var i := Selected(st);
    var p := s.projects[i];
    var q := p.(todosByDate := p.todosByDate[s.selectedDate := f(CurrentList(st))]);
    var r := s.(projects := s.projects[i := q]);
    SelectedSurvivesUpdate(s.projects, i, q, s.selectedProjectId);
    r
  }

  /** Replacing a project by one with the same id does not move the selection. */
  lemma SelectedSurvivesUpdate(ps: seq<Project>, i: nat, q: Project, id: string)
    requires i < |ps| && q.id == ps[i].id
    ensures |ps[i := q]| > 0
    ensures SelectedIndex(ps[i := q], id) == SelectedIndex(ps, id)
  {
    var qs := ps[i := q];
    assert forall j :: 0 <= j < |ps| ==> qs[j].id == ps[j].id;
    assert HasProject(qs, id) <==> HasProject(ps, id);
  }

  /** Lists that stay well-formed under `f` stay well-formed in the state. */
  lemma UpdateKeepsValid(st: AppState, f: seq<Task> -> seq<Task>)
    requires ValidState(st)
    requires AllWellFormed(f(CurrentList(st)))
    ensures ValidState(UpdateCurrentList(st, f))
  {
    var r := UpdateCurrentList(st, f);
    var i := Selected(st);
    assert r.projects[i].id == st.projects[i].id;
    assert WellFormedProject(r.projects[i]);
  }

  /**
   Start-up: the loaded store, today's key as the selected date, the "all"
   filter, and `store.selectedProjectId || store.projects[0].id`; the store
   is then saved and rendered.
   */
  function Init(stored: Stored, today: Date, mint: IdSite -> string): (r: Step)
    requires Valid(today)
    ensures ValidState(r.state)
    ensures r.state.projects == LoadStore(stored, today, mint).projects
    ensures r.state.selectedDate == FormatKey(today) && r.state.filter == All
    ensures r.saved == Some(Snapshot(r.state))
  {
    var store := LoadStore(stored, today, mint);
    var id := if store.selectedProjectId != "" then store.selectedProjectId else store.projects[0].id;
    assert HasProject(store.projects, store.projects[0].id);
    var st := AppState(store.projects, id, FormatKey(today), All);
    Step(st, Some(Snapshot(st)))
  }

  /** Start-up keeps the loaded selection unless it is the empty id. */
  lemma InitKeepsSelection(stored: Stored, today: Date, mint: IdSite -> string)
    requires Valid(today)
    ensures var s := LoadStore(stored, today, mint);
      s.selectedProjectId != "" ==> Init(stored, today, mint).state.selectedProjectId == s.selectedProjectId
  {
  }

  /**
   The project form: `createProject(input)`. A refused name changes nothing
   and saves nothing; an accepted one appends the project, selects it and
   saves.
   */
  function SubmitProject(st: AppState, input: string, id: string): (r: Step)
    requires |st.projects| > 0
    ensures CreateProject(st.projects, input, id).Rejected? ==> r == Step(st, None)
    ensures CreateProject(st.projects, input, id).Accepted? ==>
      && r.state.projects == st.projects + [Project(id, Text.Trim(input), map[])]
      && r.state.selectedProjectId == id
      && r.state.selectedDate == st.selectedDate && r.state.filter == st.filter
      && r.saved == Some(Snapshot(r.state))
  {
    match CreateProject(st.projects, input, id)
    case Rejected(_) => Step(st, None)
    case Accepted(ps) =>
      var s := st.(projects := ps, selectedProjectId := id);
      assert ps[|st.projects|].id == id;
      Step(Resolve(s), Some(Snapshot(s)))
  }

  /** The project picker: the chosen id is saved as it is, and rendering then resolves it. */
  function SelectProject(st: AppState, value: string): (r: Step)
    requires |st.projects| > 0
    ensures r.saved == Some(Store(st.projects, value))
    ensures r.state.projects == st.projects && r.state.selectedDate == st.selectedDate && r.state.filter == st.filter
    ensures HasProject(st.projects, value) ==> r.state.selectedProjectId == value
    ensures !HasProject(st.projects, value) ==> r.state.selectedProjectId == st.projects[0].id
  {
    var s := st.(selectedProjectId := value);
    Step(Resolve(s), Some(Snapshot(s)))
  }

  /**
   The rename-project button with the prompt's answer (`None` when it is
   cancelled). The selected project is looked up first, so the selection is
   resolved even when nothing else happens.
   */
  function RenameSelectedProject(st: AppState, answer: Option<string>): (r: Step)
    requires |st.projects| > 0
    ensures var s := Resolve(st);
      answer.None? || RenameProject(s.projects, Selected(s), answer.value).Rejected? ==> r == Step(s, None)
    ensures var s := Resolve(st);
      answer.Some? && RenameProject(s.projects, Selected(s), answer.value).Accepted? ==>
        && r.state == s.(projects := RenameProject(s.projects, Selected(s), answer.value).value)
        && r.saved == Some(Snapshot(r.state))
  {
    var s := Resolve(st);
    if answer.None? then Step(s, None)
    else
      match RenameProject(s.projects, Selected(s), answer.value)
      case Rejected(_) => Step(s, None)
      case Accepted(ps) =>
        var t := s.(projects := ps);
        Step(t, Some(Snapshot(t)))
  }

  /**
   The task form: the input is trimmed; a blank input does nothing, and
   otherwise a new task with the trimmed text goes first in the selected
   date's list.
   */
  function SubmitTodo(st: AppState, input: string, id: string): (r: Step)
    requires |st.projects| > 0
    ensures Text.Trim(input) == "" ==> r == Step(st, None)
    ensures Text.Trim(input) != "" ==>
      && r.state == UpdateCurrentList(st, (ts: seq<Task>) => AddTodo(ts, id, Text.Trim(input)))
      && CurrentList(r.state) == [NewTodo(id, Text.Trim(input))] + CurrentList(st)
      && r.saved == Some(Snapshot(r.state))
  {
    var text := Text.Trim(input);
    if text == "" then Step(st, None)
    else
      var s := UpdateCurrentList(st, (ts: seq<Task>) => AddTodo(ts, id, text));
      Step(s, Some(Snapshot(s)))
  }

  /** A checkbox: `toggleTodo(id)` at clock reading `now`. */
  function ToggleClicked(st: AppState, id: string, now: int): (r: Step)
    requires |st.projects| > 0
    ensures r.state == UpdateCurrentList(st, (ts: seq<Task>) => ToggleTodo(ts, id, now))
    ensures CurrentList(r.state) == ToggleTodo(CurrentList(st), id, now)
    ensures r.saved == Some(Snapshot(r.state))
  {
    var s := UpdateCurrentList(st, (ts: seq<Task>) => ToggleTodo(ts, id, now));
    Step(s, Some(Snapshot(s)))
  }

  /** A delete button: `deleteTodo(id)`. */
  function DeleteClicked(st: AppState, id: string): (r: Step)
    requires |st.projects| > 0
    ensures r.state == UpdateCurrentList(st, (ts: seq<Task>) => DeleteTodo(ts, id))
    ensures !HasId(CurrentList(r.state), id)
    ensures r.saved == Some(Snapshot(r.state))
  {
    var s := UpdateCurrentList(st, (ts: seq<Task>) => DeleteTodo(ts, id));
    Step(s, Some(Snapshot(s)))
  }

  /** The clear-completed button. */
  function ClearCompletedClicked(st: AppState): (r: Step)
    requires |st.projects| > 0
    ensures r.state == UpdateCurrentList(st, ClearCompleted)
    ensures forall t :: t in CurrentList(r.state) <==> t in CurrentList(st) && !t.completed
    ensures r.saved == Some(Snapshot(r.state))
  {
    var s := UpdateCurrentList(st, ClearCompleted);
    Step(s, Some(Snapshot(s)))
  }

  /** The list change an accepted rename makes: the renamed list, or the list unchanged if the rename is refused. */
  function Renamer(items: seq<Task>, id: string, answer: string): seq<Task> -> seq<Task> {
    (_: seq<Task>) => match RenameTodo(items, id, answer) case Some(updated) => updated case None => items
  }

  /**
   An edit button: `renameTodo(id)` with the prompt's answer. An unknown id,
   a cancelled prompt or a blank answer saves nothing; otherwise only the
   current list changes, to its renamed form, and the store is saved.
   */
  function RenameTodoClicked(st: AppState, id: string, answer: Option<string>): (r: Step)
    requires |st.projects| > 0
    ensures |r.state.projects| == |st.projects|
    ensures var s := Resolve(st);
      !HasId(CurrentList(st), id) || answer.None? || Text.Trim(answer.value) == "" ==> r == Step(s, None)
    ensures HasId(CurrentList(st), id) && answer.Some? && Text.Trim(answer.value) != "" ==>
      && r.state == UpdateCurrentList(st, Renamer(CurrentList(st), id, answer.value))
      && Some(CurrentList(r.state)) == RenameTodo(CurrentList(st), id, answer.value)
      && r.saved == Some(Snapshot(r.state))
  {
    var s := Resolve(st);
    var items := CurrentList(st);
    if !HasId(items, id) || answer.None? || RenameTodo(items, id, answer.value).None? then Step(s, None)
    else
      var t := UpdateCurrentList(st, Renamer(items, id, answer.value));
      Step(t, Some(Snapshot(t)))
  }

  /** The date picker: an empty value means today. Nothing is saved. */
  function SelectDate(st: AppState, value: string, today: string): (r: Step)
    requires |st.projects| > 0
    ensures r.saved.None?
    ensures r.state.selectedDate == if value == "" then today else value
    ensures r.state.projects == st.projects && r.state.filter == st.filter
    ensures r.state.selectedProjectId == Resolve(st).selectedProjectId
  {
    Step(Resolve(st).(selectedDate := if value == "" then today else value), None)
  }

  /** A filter button. Nothing is saved and no list changes. */
  function SetFilter(st: AppState, f: Filter): (r: Step)
    requires |st.projects| > 0
    ensures r.saved.None?
    ensures r.state.filter == f && r.state.projects == st.projects && r.state.selectedDate == st.selectedDate
    ensures r.state.selectedProjectId == Resolve(st).selectedProjectId
  {
    Step(Resolve(st).(filter := f), None)
  }

  /** Creating a project keeps the state valid. */
  lemma SubmitProjectKeepsValid(st: AppState, input: string, id: string)
    requires ValidState(st)
    ensures ValidState(SubmitProject(st, input, id).state)
  {
    if CreateProject(st.projects, input, id).Accepted? {
      var qs := CreateProject(st.projects, input, id).value;
      CreateKeepsWellFormed(st.projects, input, id);
      assert qs[|st.projects|].id == id;
    }
  }

  /** Picking a project keeps the state valid, whatever id the picker reports. */
  lemma SelectProjectKeepsValid(st: AppState, value: string)
    requires ValidState(st)
    ensures ValidState(SelectProject(st, value).state)
  {
  }

  /** Renaming the selected project keeps the state valid. */
  lemma RenameSelectedKeepsValid(st: AppState, answer: Option<string>)
    requires ValidState(st)
    ensures ValidState(RenameSelectedProject(st, answer).state)
  {
    var i := Selected(st);
    if answer.Some? && RenameProject(st.projects, i, answer.value).Accepted? {
      var qs := RenameProject(st.projects, i, answer.value).value;
      RenameKeepsWellFormed(st.projects, i, answer.value);
      assert qs[i].id == st.selectedProjectId;
    }
  }

  /** The task form keeps the state valid. */
  lemma SubmitTodoKeepsValid(st: AppState, input: string, id: string)
    requires ValidState(st)
    ensures ValidState(SubmitTodo(st, input, id).state)
  {
    var text := Text.Trim(input);
    if text != "" {
      AddWellFormed(CurrentList(st), id, text);
      UpdateKeepsValid(st, (ts: seq<Task>) => AddTodo(ts, id, text));
    }
  }

  /** Toggling keeps the state valid, given a clock reading that is not zero. */
  lemma ToggleKeepsValid(st: AppState, id: string, now: int)
    requires ValidState(st) && now != 0
    ensures ValidState(ToggleClicked(st, id, now).state)
  {
    ToggleWellFormed(CurrentList(st), id, now);
    UpdateKeepsValid(st, (ts: seq<Task>) => ToggleTodo(ts, id, now));
  }

  /** Deleting and clearing keep the state valid. */
  lemma RemovalsKeepValid(st: AppState, id: string)
    requires ValidState(st)
    ensures ValidState(DeleteClicked(st, id).state)
    ensures ValidState(ClearCompletedClicked(st).state)
  {
    KeepWellFormed(CurrentList(st), (t: Task) => t.id != id);
    UpdateKeepsValid(st, (ts: seq<Task>) => DeleteTodo(ts, id));
    KeepWellFormed(CurrentList(st), IsActive);
    UpdateKeepsValid(st, ClearCompleted);
  }

  /** Renaming a task keeps the state valid. */
  lemma RenameTodoKeepsValid(st: AppState, id: string, answer: Option<string>)
    requires ValidState(st)
    ensures ValidState(RenameTodoClicked(st, id, answer).state)
  {
    var items := CurrentList(st);
    if HasId(items, id) && answer.Some? && RenameTodo(items, id, answer.value).Some? {
      RenameWellFormed(items, id, answer.value);
      UpdateKeepsValid(st, Renamer(items, id, answer.value));
    }
  }

  /** The date picker and the filter buttons keep the state valid. */
  lemma ViewHandlersKeepValid(st: AppState, value: string, today: string, f: Filter)
    requires ValidState(st)
    ensures ValidState(SelectDate(st, value, today).state)
    ensures ValidState(SetFilter(st, f).state)
  {
  }

  /**
   The project handlers keep names unique, ignoring case, as long as no other
   project shares the selected project's id; the task handlers leave names
   alone.
   */
  lemma HandlersKeepNamesUnique(st: AppState, input: string, id: string, answer: Option<string>)
    requires |st.projects| > 0 && NamesUnique(st.projects)
    requires IdUniqueAt(st.projects, Selected(st))
    ensures NamesUnique(SubmitProject(st, input, id).state.projects)
    ensures NamesUnique(RenameSelectedProject(st, answer).state.projects)
  {
    if CreateProject(st.projects, input, id).Accepted? {
      CreateKeepsNamesUnique(st.projects, input, id);
    }
    var s := Resolve(st);
    if answer.Some? && RenameProject(s.projects, Selected(s), answer.value).Accepted? {
      RenameKeepsNamesUnique(s.projects, Selected(s), answer.value);
    }
  }
}

=== FILE: calendar.dfy ===
/**
 Calendar dates in the proleptic Gregorian calendar and their day numbers.
 A date key is moved by whole days by converting the date to a day number,
 adding, and converting back; this stands in for the `Date` object's
 `setDate(getDate() + n)` normalisation, without time zones.
 */
module Calendar {

  datatype Date = Date(year: int, month: int, day: int)

  predicate IsLeapYear(y: int) {
    y % 4 == 0 && (y % 100 != 0 || y % 400 == 0)
  }

  function DaysInYear(y: int): int {
    if IsLeapYear(y) then 366 else 365
  }

  function DaysInMonth(y: int, m: int): int
    requires 1 <= m <= 12
  {
    if m == 2 then (if IsLeapYear(y) then 29 else 28)
    else if m == 4 || m == 6 || m == 9 || m == 11 then 30
    else 31
  }

  predicate Valid(d: Date) {
    1 <= d.month <= 12 && 1 <= d.day <= DaysInMonth(d.year, d.month)
  }

  /** Days from 0000-01-01 to `y`-01-01 (negative before year 0). */
  function YearStart(y: int): int
    decreases if y < 0 then -y else y
  {
    if y == 0 then 0
    else if y > 0 then YearStart(y - 1) + DaysInYear(y - 1)
    else YearStart(y + 1) - DaysInYear(y)
  }

  /** Days from the first of the year to the first of month `m`. */
  function MonthStart(y: int, m: int): int
    requires 1 <= m <= 12
  {
    var leap := if IsLeapYear(y) then 1 else 0;
    match m
    case 1 => 0
    case 2 => 31
    case 3 => 59 + leap
    case 4 => 90 + leap
    case 5 => 120 + leap
    case 6 => 151 + leap
    case 7 => 181 + leap
    case 8 => 212 + leap
    case 9 => 243 + leap
    case 10 => 273 + leap
    case 11 => 304 + leap
    case _ => 334 + leap
  }

  /** Days from 0000-01-01 to `d`. */
  function DayNumber(d: Date): int
    requires Valid(d)
  {
    YearStart(d.year) + MonthStart(d.year, d.month) + d.day - 1
  }

  /** Consecutive year starts are one year length apart. */
  lemma YearLength(y: int)
    ensures YearStart(y + 1) == YearStart(y) + DaysInYear(y)
  {
  }

  lemma {:induction false} YearStartMonotone(a: int, b: int)
    requires a <= b
    ensures YearStart(a) + 365 * (b - a) <= YearStart(b)
    decreases b - a
  {
    if a < b {
      YearLength(b - 1);
      YearStartMonotone(a, b - 1);
    }
  }

  /** At most one year contains a given day number. */
  lemma YearUnique(n: int, y1: int, y2: int)
    requires YearStart(y1) <= n < YearStart(y1 + 1)
    requires YearStart(y2) <= n < YearStart(y2 + 1)
    ensures y1 == y2
  {
    if y1 < y2 {
      YearStartMonotone(y1 + 1, y2);
    } else if y2 < y1 {
      YearStartMonotone(y2 + 1, y1);
    }
  }

  lemma MonthStep(y: int, m: int)
    requires 1 <= m <= 12
    ensures m < 12 ==> MonthStart(y, m + 1) == MonthStart(y, m) + DaysInMonth(y, m)
    ensures m == 12 ==> MonthStart(y, m) + DaysInMonth(y, m) == DaysInYear(y)
  {
  }

  lemma {:induction false} MonthStartMonotone(y: int, a: int, b: int)
    requires 1 <= a < b <= 12
    ensures MonthStart(y, a) + DaysInMonth(y, a) <= MonthStart(y, b)
    decreases b - a
  {
    MonthStep(y, a);
    if a + 1 < b {
      MonthStep(y, a + 1);
      MonthStartMonotone(y, a + 1, b);
    }
  }

  /** At most one month of year `y` contains a given day offset. */
  lemma MonthUnique(y: int, off: int, m1: int, m2: int)
    requires 1 <= m1 <= 12 && 1 <= m2 <= 12
    requires MonthStart(y, m1) <= off < MonthStart(y, m1) + DaysInMonth(y, m1)
    requires MonthStart(y, m2) <= off < MonthStart(y, m2) + DaysInMonth(y, m2)
    ensures m1 == m2
  {
    if m1 < m2 {
      MonthStartMonotone(y, m1, m2);
    } else if m2 < m1 {
      MonthStartMonotone(y, m2, m1);
    }
  }

  /** A valid date lies inside its own year and month. */
  lemma DateInsideYear(d: Date)
    requires Valid(d)
    ensures YearStart(d.year) <= DayNumber(d) < YearStart(d.year + 1)
  {
    YearLength(d.year);
    if d.month < 12 {
      MonthStartMonotone(d.year, d.month, 12);
    }
    MonthStep(d.year, 12);
  }

  /** Different valid dates have different day numbers. */
  lemma DayNumberInjective(d1: Date, d2: Date)
    requires Valid(d1) && Valid(d2)
    requires DayNumber(d1) == DayNumber(d2)
    ensures d1 == d2
  {
    DateInsideYear(d1);
    DateInsideYear(d2);
    YearUnique(DayNumber(d1), d1.year, d2.year);
    var off := DayNumber(d1) - YearStart(d1.year);
    MonthUnique(d1.year, off, d1.month, d2.month);
  }

  /** Searches downwards for the year that contains day `n`. */
  function FindYearDown(n: int, y: int): (r: int)
    requires n < YearStart(y + 1)
    ensures YearStart(r) <= n < YearStart(r + 1)
    decreases YearStart(y + 1) - n
  {
    YearLength(y);
    if YearStart(y) <= n then y else FindYearDown(n, y - 1)
  }

  /** Searches upwards for the year that contains day `n`. */
  function FindYearUp(n: int, y: int): (r: int)
    requires YearStart(y) <= n
    ensures YearStart(r) <= n < YearStart(r + 1)
    decreases n - YearStart(y)
  {
    YearLength(y);
    if n < YearStart(y + 1) then y else FindYearUp(n, y + 1)
  }

  /** Searches the months of `y` upwards for the one holding day offset `off`. */
  function FindMonth(y: int, off: int, m: int): (r: int)
    requires 1 <= m <= 12
    requires MonthStart(y, m) <= off < DaysInYear(y)
    ensures m <= r <= 12
    ensures MonthStart(y, r) <= off < MonthStart(y, r) + DaysInMonth(y, r)
    decreases 12 - m
  {
    MonthStep(y, m);
    if off < MonthStart(y, m) + DaysInMonth(y, m) then m else FindMonth(y, off, m + 1)
  }

  /** The date whose day number is `n`. */
  function FromDayNumber(n: int): (r: Date)
    ensures Valid(r)
    ensures DayNumber(r) == n
  {
    var y := if n < YearStart(0) then FindYearDown(n, -1) else FindYearUp(n, 0);
    YearLength(y);
    var off := n - YearStart(y);
    var m := FindMonth(y, off, 1);
    Date(y, m, off - MonthStart(y, m) + 1)
  }

  /** Day numbers and valid dates are in one-to-one correspondence. */
  lemma FromDayNumberOfDate(d: Date)
    requires Valid(d)
    ensures FromDayNumber(DayNumber(d)) == d
  {
    DayNumberInjective(FromDayNumber(DayNumber(d)), d);
  }

  /** `addDays`: the date `k` days after `d` (before it when `k` is negative). */
  function AddDays(d: Date, k: int): (r: Date)
    requires Valid(d)
    ensures Valid(r)
    ensures DayNumber(r) == DayNumber(d) + k
  {
    FromDayNumber(DayNumber(d) + k)
  }

  /** The following calendar day, by the month-length table alone. */
  function NextDay(d: Date): Date
    requires Valid(d)
  {
    if d.day < DaysInMonth(d.year, d.month) then Date(d.year, d.month, d.day + 1)
    else if d.month < 12 then Date(d.year, d.month + 1, 1)
    else Date(d.year + 1, 1, 1)
  }

  lemma AddDaysZero(d: Date)
    requires Valid(d)
    ensures AddDays(d, 0) == d
  {
    FromDayNumberOfDate(d);
  }

  lemma AddDaysCompose(d: Date, a: int, b: int)
    requires Valid(d)
    ensures AddDays(AddDays(d, a), b) == AddDays(d, a + b)
  {
    DayNumberInjective(AddDays(AddDays(d, a), b), AddDays(d, a + b));
  }

  /** One day forward rolls over month and year ends as the calendar does. */
  lemma AddOneDay(d: Date)
    requires Valid(d)
    ensures AddDays(d, 1) == NextDay(d)
  {
    var e := NextDay(d);
    MonthStep(d.year, d.month);
    if d.day == DaysInMonth(d.year, d.month) && d.month == 12 {
      YearLength(d.year);
    }
    assert Valid(e) && DayNumber(e) == DayNumber(d) + 1;
    DayNumberInjective(AddDays(d, 1), e);
  }

  /** The day after `d + k` is `d + (k + 1)`. */
  lemma NextDayOfAddDays(d: Date, k: int)
    requires Valid(d)
    ensures NextDay(AddDays(d, k)) == AddDays(d, k + 1)
  {
    AddOneDay(AddDays(d, k));
    AddDaysCompose(d, k, 1);
  }

  /** Moving back by at most a year's worth of days lands in the same year or the one before. */
  lemma ShortMoveBack(d: Date, k: int)
    requires Valid(d) && -365 <= k <= 0
    ensures d.year - 1 <= AddDays(d, k).year <= d.year
  {
    var e := AddDays(d, k);
    DateInsideYear(d);
    DateInsideYear(e);
    NearbyYear(DayNumber(d), d.year, DayNumber(e), e.year);
  }

  /** A day number at most 365 days before one in year `y1` lies in year `y1` or `y1 - 1`. */
  lemma NearbyYear(n1: int, y1: int, n2: int, y2: int)
    requires YearStart(y1) <= n1 < YearStart(y1 + 1)
    requires YearStart(y2) <= n2 < YearStart(y2 + 1)
    requires n1 - 365 <= n2 <= n1
    ensures y1 - 1 <= y2 <= y1
  {
    YearLength(y1 - 1);
    if y2 > y1 {
      YearStartMonotone(y1 + 1, y2);
    } else if y2 < y1 - 1 {
      YearStartMonotone(y2 + 1, y1 - 1);
    }
  }

  /** Moving back by `k` days undoes moving forward by `k` days, for every `k`. */
  lemma AddDaysInverse(d: Date, k: int)
    requires Valid(d)
    ensures AddDays(AddDays(d, k), -k) == d
  {
    DayNumberInjective(AddDays(AddDays(d, k), -k), d);
  }

  /** In a leap year (every fourth year; centuries only when divisible by 400) February has a 29th. */
  lemma LeapFebruary()
    ensures Valid(Date(2024, 2, 28)) && AddDays(Date(2024, 2, 28), 1) == Date(2024, 2, 29)
    ensures Valid(Date(2000, 2, 28)) && AddDays(Date(2000, 2, 28), 1) == Date(2000, 2, 29)
  {
    assert IsLeapYear(2024) && IsLeapYear(2000);
    AddOneDay(Date(2024, 2, 28));
    AddOneDay(Date(2000, 2, 28));
  }

  /** In a common year, including a century not divisible by 400, March follows February 28. */
  lemma CommonFebruary()
    ensures Valid(Date(2023, 2, 28)) && AddDays(Date(2023, 2, 28), 1) == Date(2023, 3, 1)
    ensures Valid(Date(2100, 2, 28)) && AddDays(Date(2100, 2, 28), 1) == Date(2100, 3, 1)
  {
    assert !IsLeapYear(2023) && !IsLeapYear(2100);
    AddOneDay(Date(2023, 2, 28));
    AddOneDay(Date(2100, 2, 28));
  }

  /** Stepping across the end of a year. */
  lemma YearBoundary()
    ensures Valid(Date(2024, 12, 31)) && AddDays(Date(2024, 12, 31), 1) == Date(2025, 1, 1)
  {
    assert DaysInMonth(2024, 12) == 31 && NextDay(Date(2024, 12, 31)) == Date(2025, 1, 1);
    AddOneDay(Date(2024, 12, 31));
  }
}

=== FILE: date_key.dfy ===
/**
 Date keys: the `YYYY-MM-DD` strings under which a project files its task
 lists. `toDateKey` formats a date, `addDays` parses a key as local
 midnight, moves it and formats it again, and `getRecentDays` lists the keys
 of a trailing window.
 */
module DateKey {
  import opened Json
  import opened Calendar

  function DigitChar(n: int): (c: char)
    requires 0 <= n <= 9
    ensures '0' <= c <= '9'
  {
    ('0' as int + n) as char
  }

  predicate IsDigit(c: char) {
    '0' <= c <= '9'
  }

  function DigitValue(c: char): (n: int)
    requires IsDigit(c)
    ensures 0 <= n <= 9 && DigitChar(n) == c
  {
    c as int - '0' as int
  }

  /** `String(n)` for a natural number: decimal, no leading zeros. */
  function NatToString(n: nat): (r: string)
    ensures 1 <= |r|
    ensures forall i :: 0 <= i < |r| ==> IsDigit(r[i])
    decreases n
  {
    if n < 10 then [DigitChar(n)] else NatToString(n / 10) + [DigitChar(n % 10)]
  }

  /** `String(i)` for an integer. */
  function IntToString(i: int): string {
    if i < 0 then "-" + NatToString(-i) else NatToString(i)
  }

  /** `String(n).padStart(2, "0")`. */
  function Pad2(n: nat): string {
    var s := NatToString(n);
    if |s| < 2 then "0" + s else s
  }

  /**
   `toDateKey`: the year as `String` gives it, then zero-padded month and
   day; for a four-digit year that is the `DDDD-DD-DD` shape.
   */
  function FormatKey(d: Date): (r: string)
    requires Valid(d)
    ensures 1000 <= d.year <= 9999 ==> KeyShape(r)
  {
    var r := IntToString(d.year) + "-" + Pad2(d.month) + "-" + Pad2(d.day);
    assert 1000 <= d.year <= 9999 ==> KeyShape(r) by {
      if 1000 <= d.year <= 9999 {
        FourDigits(d.year);
        TwoDigits(d.month);
        TwoDigits(d.day);
      }
    }
    r
  }

  /** Splitting off the last decimal digit. */
  lemma LastDigit(n: nat)
    ensures n == 10 * (n / 10) + n % 10 && 0 <= n % 10 <= 9
  {
  }

  /** The four decimal digits of a year between 1000 and 9999, most significant first. */
  lemma FourDigits(y: int)
    requires 1000 <= y <= 9999
    ensures NatToString(y)
         == [DigitChar(y / 10 / 10 / 10), DigitChar(y / 10 / 10 % 10), DigitChar(y / 10 % 10), DigitChar(y % 10)]
  {
    var c, b, a := y / 10, y / 10 / 10, y / 10 / 10 / 10;
    assert 1 <= a <= 9 && 10 <= b && 100 <= c;
    assert NatToString(a) == [DigitChar(a)];
    assert NatToString(b) == NatToString(a) + [DigitChar(b % 10)];
    assert NatToString(c) == NatToString(b) + [DigitChar(c % 10)];
  }

  /** Months and days print as exactly two digits. */
  lemma TwoDigits(n: int)
    requires 1 <= n <= 99
    ensures Pad2(n) == [DigitChar(n / 10), DigitChar(n % 10)]
  {
    if n >= 10 {
      assert NatToString(n / 10) == [DigitChar(n / 10)];
    }
  }

  /** The value of the two digits `s[i]`, `s[i + 1]`. */
  function Digits2(s: string, i: nat): int
    requires i + 2 <= |s| && IsDigit(s[i]) && IsDigit(s[i + 1])
  {
    10 * DigitValue(s[i]) + DigitValue(s[i + 1])
  }

  /** The shape `DDDD-DD-DD`. */
  predicate KeyShape(s: string) {
    && |s| == 10 && s[4] == '-' && s[7] == '-'
    && IsDigit(s[0]) && IsDigit(s[1]) && IsDigit(s[2]) && IsDigit(s[3])
    && IsDigit(s[5]) && IsDigit(s[6]) && IsDigit(s[8]) && IsDigit(s[9])
  }

  /**
   Parsing `key + "T00:00:00"`, restricted to keys of the `YYYY-MM-DD` form
   naming a day that exists in its month. The other forms of the ECMAScript
   date-time string format (`YYYY`, `YYYY-MM`, expanded `+YYYYYY` years) are
   treated as an invalid date (`None`) here.
   */
  function ParseKey(s: string): (r: Option<Date>)
    ensures r.Some? ==> Valid(r.value) && 0 <= r.value.year <= 9999
    ensures r.Some? ==> KeyShape(s)
  {
    if !KeyShape(s) then None
    else
      var d := Date(100 * Digits2(s, 0) + Digits2(s, 2), Digits2(s, 5), Digits2(s, 8));
      if Valid(d) then Some(d) else None
  }

  /** The ten characters of the key of a date with a four-digit year. */
  lemma KeyCharacters(d: Date)
    requires Valid(d) && 1000 <= d.year <= 9999
    ensures FormatKey(d)
         == [DigitChar(d.year / 10 / 10 / 10), DigitChar(d.year / 10 / 10 % 10), DigitChar(d.year / 10 % 10),
             DigitChar(d.year % 10), '-', DigitChar(d.month / 10), DigitChar(d.month % 10),
             '-', DigitChar(d.day / 10), DigitChar(d.day % 10)]
  {
    FourDigits(d.year);
    TwoDigits(d.month);
    TwoDigits(d.day);
  }

  /** Reading back the four decimal digits of a number below 10000. */
  lemma DigitsValue(y: nat)
    requires y <= 9999
    ensures 100 * (10 * (y / 10 / 10 / 10) + y / 10 / 10 % 10) + (10 * (y / 10 % 10) + y % 10) == y
  {
    LastDigit(y);
    LastDigit(y / 10);
    LastDigit(y / 10 / 10);
  }

  /** Parsing a formatted key gives the date back, for four-digit years. */
  lemma ParseFormat(d: Date)
    requires Valid(d) && 1000 <= d.year <= 9999
    ensures ParseKey(FormatKey(d)) == Some(d)
  {
    KeyCharacters(d);
    DigitsValue(d.year);
    LastDigit(d.month);
    LastDigit(d.day);
  }

  /** Appending the digit `c` to `q` and splitting it off again. */
  lemma DigitsOfValue(q: nat, c: nat)
    requires c <= 9
    ensures (10 * q + c) / 10 == q && (10 * q + c) % 10 == c
  {
  }

  /** A key that parses to a four-digit year is exactly the formatted date. */
  lemma FormatParse(s: string)
    requires ParseKey(s).Some? && 1000 <= ParseKey(s).value.year
    ensures FormatKey(ParseKey(s).value) == s
  {
    var d := ParseKey(s).value;
    KeyCharacters(d);
    var d0, d1, d2, d3 := DigitValue(s[0]), DigitValue(s[1]), DigitValue(s[2]), DigitValue(s[3]);
    assert d.year == 10 * (10 * (10 * d0 + d1) + d2) + d3;
    DigitsOfValue(10 * (10 * d0 + d1) + d2, d3);
    DigitsOfValue(10 * d0 + d1, d2);
    DigitsOfValue(d0, d1);
    DigitsOfValue(DigitValue(s[5]), DigitValue(s[6]));
    DigitsOfValue(DigitValue(s[8]), DigitValue(s[9]));
    var t := FormatKey(d);
    assert forall i :: 0 <= i < 10 ==> t[i] == s[i];
  }

  /** Different dates with four-digit years get different keys. */
  lemma FormatKeyInjective(d1: Date, d2: Date)
    requires Valid(d1) && 1000 <= d1.year <= 9999
    requires Valid(d2) && 1000 <= d2.year <= 9999
    requires FormatKey(d1) == FormatKey(d2)
    ensures d1 == d2
  {
    ParseFormat(d1);
    ParseFormat(d2);
  }

  /** What `toDateKey` makes of an invalid date. */
  const InvalidKey: string := "NaN-NaN-NaN"

  /** `addDays`: parse, move by whole days, format; an unparseable key yields the invalid-date key. */
  function AddDaysKey(key: string, k: int): (r: string)
    ensures ParseKey(key).None? ==> r == InvalidKey
    ensures ParseKey(key).Some? ==> r == FormatKey(AddDays(ParseKey(key).value, k))
  {
    match ParseKey(key)
    case None => InvalidKey
    case Some(d) => FormatKey(AddDays(d, k))
  }

  /** A key in canonical form: it parses, with a four-digit year. */
  predicate CanonicalKey(s: string) {
    ParseKey(s).Some? && 1000 <= ParseKey(s).value.year
  }

  /** `addDays(key, 0)` returns a canonical key unchanged. */
  lemma AddDaysKeyZero(key: string)
    requires CanonicalKey(key)
    ensures AddDaysKey(key, 0) == key
  {
    AddDaysZero(ParseKey(key).value);
    FormatParse(key);
  }

  /** Moving a key twice is moving it once by the sum, while the years stay four-digit. */
  lemma AddDaysKeyCompose(key: string, a: int, b: int)
    requires ParseKey(key).Some?
    requires var m := AddDays(ParseKey(key).value, a); 1000 <= m.year <= 9999
    ensures AddDaysKey(AddDaysKey(key, a), b) == AddDaysKey(key, a + b)
  {
    var d := ParseKey(key).value;
    ParseFormat(AddDays(d, a));
    AddDaysCompose(d, a, b);
  }

  /** `getRecentDays(base, n)`: the keys of `base` and the `n - 1` days before it, newest first. */
  function RecentDays(base: string, n: nat): (r: seq<string>)
    ensures |r| == n
    ensures forall i :: 0 <= i < n ==> r[i] == AddDaysKey(base, -i)
  {
    Backwards(Shift(base), n)
  }

  /** Moving `base` by a given number of days. */
  function Shift(base: string): int -> string {
    (k: int) => AddDaysKey(base, k)
  }

  /** The values of `move` at `0, -1, ..., -(n - 1)`. */
  function Backwards(move: int -> string, n: nat): (r: seq<string>)
    ensures |r| == n
    ensures forall i :: 0 <= i < n ==> r[i] == move(-i)
  {
    seq(n, i requires 0 <= i < n => move(-i))
  }

  /** The newest entry of a window over a canonical key is that key itself. */
  lemma RecentDaysStartsAtBase(base: string, n: nat)
    requires CanonicalKey(base) && 0 < n
    ensures RecentDays(base, n)[0] == base
  {
    AddDaysKeyZero(base);
  }

  /** `addDays("2024-02-28", 1)` is the leap day, at the level of keys. */
  lemma LeapDayKey()
    ensures AddDaysKey("2024-02-28", 1) == "2024-02-29"
  {
    var d, e := Date(2024, 2, 28), Date(2024, 2, 29);
    KeyCharacters(d);
    KeyCharacters(e);
    assert FormatKey(d) == "2024-02-28";
    assert FormatKey(e) == "2024-02-29";
    ParseFormat(d);
    Calendar.LeapFebruary();
  }

  /** A key naming a day that 2023 does not have does not parse. */
  lemma MissingLeapDayKey()
    ensures ParseKey("2023-02-29").None?
  {
    assert !IsLeapYear(2023);
  }

  /** A key without zero padding does not parse, so moving it gives the invalid key. */
  lemma UnpaddedKeyIsInvalid()
    ensures AddDaysKey("2024-1-5", 1) == InvalidKey
  {
    assert !KeyShape("2024-1-5");
  }
}

=== FILE: json.dfy ===
/**
 The already-parsed value that the persisted record decodes to, and the
 handful of JavaScript dynamic checks the normaliser applies to it:
 truthiness, `typeof`, `Array.isArray` and property access.
 */
module Json {

  /** `None` stands for JavaScript's `undefined` (a missing property). */
  datatype Option<+T> = None | Some(value: T)

  /** A value produced by `JSON.parse`. Object keys are unique after parsing. */
  datatype Json =
    | JNull
    | JBool(b: bool)
    | JNum(n: real)
    | JStr(s: string)
    | JArr(items: seq<Json>)
    | JObj(fields: map<string, Json>)

  /** `v.key`: only objects have own properties that JSON can produce. */
  function Prop(v: Json, key: string): (r: Option<Json>)
    ensures r.Some? ==> v.JObj? && key in v.fields && r.value == v.fields[key]
    ensures v.JObj? && key in v.fields ==> r.Some?
  {
    match v
    case JObj(fields) => if key in fields then Some(fields[key]) else None
    case _ => None
  }

  /** JavaScript `ToBoolean`, with `None` as `undefined`. */
  predicate Truthy(v: Option<Json>) {
    match v
    case None => false
    case Some(JNull) => false
    case Some(JBool(b)) => b
    case Some(JNum(n)) => n != 0.0
    case Some(JStr(s)) => s != ""
    case Some(JArr(_)) => true
    case Some(JObj(_)) => true
  }

  /** `typeof v === "string"`. */
  predicate IsString(v: Option<Json>) {
    v.Some? && v.value.JStr?
  }

  /** `typeof v === "object"`: true for `null` and for arrays as well. */
  predicate IsObjectType(v: Option<Json>) {
    v.Some? && (v.value.JNull? || v.value.JArr? || v.value.JObj?)
  }

  /** `Array.isArray(v)`. */
  predicate IsArray(v: Option<Json>) {
    v.Some? && v.value.JArr?
  }

  /** `v && typeof v === "object"`: exactly the arrays and the objects. */
  lemma TruthyObjectIsArrayOrRecord(v: Option<Json>)
    ensures Truthy(v) && IsObjectType(v) <==> v.Some? && (v.value.JArr? || v.value.JObj?)
  {
  }

  /** `!v || typeof v !== "object" || Array.isArray(v)` rejects all but plain objects. */
  lemma PlainObjectTest(v: Option<Json>)
    ensures !(!Truthy(v) || !IsObjectType(v) || IsArray(v)) <==> v.Some? && v.value.JObj?
  {
  }
}

=== FILE: normalize.dfy ===
/**
 Loading the store: turning whatever the persisted record parses to into a
 canonical store, never failing. Legacy shapes are migrated (a bare array
 is the task list of today; a top-level `todosByDate` is one project), and
 anything unusable falls back to one fresh default project.

 `makeId` is replaced by `mint`, an injected id source indexed by the place
 where `app.js` calls `makeId`, so that every call site gets its own id.
 */
module Normalize {
  import opened Json
  import Text
  import opened Todos
  import opened Projects
  import opened Calendar
  import opened DateKey

  /** Where an id is minted: a project at a position of the stored array, or a task in a stored list. */
  datatype IdSite =
    | ProjectSite(project: nat)
    | TaskSite(project: nat, date: string, index: nat)

  /**
   What reading the record gives: nothing (`null` or the empty string), a
   record that `JSON.parse` (or the storage itself) throws on, or a value.
   */
  datatype Stored = Missing | Malformed | Parsed(value: Json)

  /** The text of `item` when `item` is truthy and `typeof item.text === "string"`. */
  predicate HasText(item: Json) {
    Truthy(Some(item)) && IsString(Prop(item, "text"))
  }

  /** One element of `normalizeItems`: `None` when a filter drops it. */
  function NormalizeItem(item: Json, freshId: string): (r: Option<Task>)
    ensures r.Some? <==> HasText(item) && Text.Trim(Prop(item, "text").value.s) != ""
    ensures r.Some? ==> WellFormed(r.value)
    ensures r.Some? ==> r.value.text == Text.Trim(Prop(item, "text").value.s)
    ensures r.Some? ==> r.value.completed == Truthy(Prop(item, "completed"))
    ensures r.Some? ==> r.value.id == if IsString(Prop(item, "id")) then Prop(item, "id").value.s else freshId
    ensures r.Some? && r.value.completed && Truthy(Prop(item, "completedAt")) ==>
      r.value.completedAt == Prop(item, "completedAt").value
    ensures r.Some? && !(r.value.completed && Truthy(Prop(item, "completedAt"))) ==> r.value.completedAt == JNull
  {
    if !HasText(item) then None
    else
      var text := Text.Trim(Prop(item, "text").value.s);
      if text == "" then None
      else
        var id := if IsString(Prop(item, "id")) then Prop(item, "id").value.s else freshId;
        var completed := Truthy(Prop(item, "completed"));
        var stamp := Prop(item, "completedAt");
        var completedAt := if completed && Truthy(stamp) then stamp.value else JNull;
        Some(Task(id, text, completed, completedAt))
  }

  /**
   The `Some` results of `f` over `xs`, in order; `f` also receives the
   position, which is what lets each dropped or kept element mint its own id.
   */
  function FilterMap<A, B>(xs: seq<A>, f: (A, nat) -> Option<B>): (r: seq<B>)
    ensures |r| <= |xs|
  {
    if xs == [] then []
    else
      var n := |xs| - 1;
      var o := f(xs[n], n);
      FilterMap(xs[..n], f) + (if o.Some? then [o.value] else [])
  }

  /** The positions whose elements `FilterMap` keeps, in order. */
  function KeptIndexes<A, B>(xs: seq<A>, f: (A, nat) -> Option<B>): seq<nat> {
    if xs == [] then []
    else
      var n := |xs| - 1;
      KeptIndexes(xs[..n], f) + (if f(xs[n], n).Some? then [n] else [])
  }

  /**
   `FilterMap` keeps exactly the positions where `f` gives a value, in
   ascending order, and its output holds those values.
   */
  lemma {:induction false} FilterMapSelects<A, B>(xs: seq<A>, f: (A, nat) -> Option<B>)
    ensures var r, ks := FilterMap(xs, f), KeptIndexes(xs, f);
      && |ks| == |r|
      && (forall k :: 0 <= k < |ks| ==> ks[k] < |xs| && f(xs[ks[k]], ks[k]) == Some(r[k]))
      && (forall k, l :: 0 <= k < l < |ks| ==> ks[k] < ks[l])
      && (forall j :: 0 <= j < |xs| && f(xs[j], j).Some? ==> j in ks)
  {
    if xs != [] {
      var n := |xs| - 1;
      var pre := xs[..n];
      FilterMapSelects(pre, f);
      var ks0 := KeptIndexes(pre, f);
      forall k | 0 <= k < |ks0|
        ensures ks0[k] < n && xs[ks0[k]] == pre[ks0[k]]
      {
      }
      forall j | 0 <= j < n
        ensures xs[j] == pre[j]
      {
      }
    }
  }

  /** When `f` keeps every element, `FilterMap` is a plain map. */
  lemma {:induction false} FilterMapKeepsAll<A, B>(xs: seq<A>, f: (A, nat) -> Option<B>, ys: seq<B>)
    requires |ys| == |xs|
    requires forall i :: 0 <= i < |xs| ==> f(xs[i], i) == Some(ys[i])
    ensures FilterMap(xs, f) == ys
  {
    if xs != [] {
      var n := |xs| - 1;
      assert ys == ys[..n] + [ys[n]];
      FilterMapKeepsAll(xs[..n], f, ys[..n]);
    }
  }

  /** `normalizeItems`' element rule with ids drawn from `mint`. */
  function ItemRule(mint: nat -> string): (Json, nat) -> Option<Task> {
    (x: Json, i: nat) => NormalizeItem(x, mint(i))
  }

  /** The list part of `normalizeItems`; the element at position `i` may use id `mint(i)`. */
  function NormalizeList(items: seq<Json>, mint: nat -> string): (r: seq<Task>)
    ensures |r| <= |items|
    ensures AllWellFormed(r)
  {
    var r := FilterMap(items, ItemRule(mint));
    FilterMapSelects(items, ItemRule(mint));
    r
  }

  /**
   `normalizeItems` is a filter: its output holds, in input order, the
   normalised forms of exactly the elements with string text that is not
   blank.
   */
  lemma NormalizeListSelects(items: seq<Json>, mint: nat -> string)
    ensures var r, ks := NormalizeList(items, mint), KeptIndexes(items, ItemRule(mint));
      && |ks| == |r|
      && (forall k :: 0 <= k < |ks| ==> ks[k] < |items| && NormalizeItem(items[ks[k]], mint(ks[k])) == Some(r[k]))
      && (forall k, l :: 0 <= k < l < |ks| ==> ks[k] < ks[l])
      && (forall j :: 0 <= j < |items| && NormalizeItem(items[j], mint(j)).Some? ==> j in ks)
  {
    FilterMapSelects(items, ItemRule(mint));
  }

  /** `normalizeItems`: a non-array gives no tasks. */
  function NormalizeItems(v: Option<Json>, mint: nat -> string): (r: seq<Task>)
    ensures !IsArray(v) ==> r == []
    ensures IsArray(v) ==> r == NormalizeList(v.value.items, mint)
    ensures AllWellFormed(r)
  {
    if IsArray(v) then NormalizeList(v.value.items, mint) else []
  }

  /** `normalizeTodosByDate`: every key of a plain object is kept; its value is normalised as a list. */
  function NormalizeTodosByDate(v: Option<Json>, mint: (string, nat) -> string): (r: map<string, seq<Task>>)
    ensures !(v.Some? && v.value.JObj?) ==> r == map[]
    ensures v.Some? && v.value.JObj? ==> r.Keys == v.value.fields.Keys
    ensures v.Some? && v.value.JObj? ==>
      forall k :: k in r && !IsArray(Some(v.value.fields[k])) ==> r[k] == []
    ensures forall k :: k in r ==> AllWellFormed(r[k])
  {
    PlainObjectTest(v);
    if !Truthy(v) || !IsObjectType(v) || IsArray(v) then map[]
    else
      var fields := v.value.fields;
      map k | k in fields :: NormalizeItems(Some(fields[k]), KeyMint(mint, k))
  }

  /** Ids for the tasks filed under one date key. */
  function KeyMint(mint: (string, nat) -> string, key: string): nat -> string {
    (i: nat) => mint(key, i)
  }

  /** One element of `normalizeProjects`, at position `index` of the stored array. */
  function NormalizeProject(p: Json, index: nat, mint: IdSite -> string): (r: Project)
    ensures WellFormedProject(r)
    ensures r.id == if IsString(Prop(p, "id")) then Prop(p, "id").value.s else mint(ProjectSite(index))
    ensures HasName(p) ==> r.name == Text.Trim(Prop(p, "name").value.s)
    ensures !HasName(p) ==> r.name == UnnamedProjectName
    ensures r.todosByDate.Keys == ObjectKeys(Prop(p, "todosByDate"))
    ensures r.todosByDate == NormalizeTodosByDate(Prop(p, "todosByDate"), ProjectMint(mint, index))
  {
    PlaceholderNamesWellFormed();
    var id := if IsString(Prop(p, "id")) then Prop(p, "id").value.s else mint(ProjectSite(index));
    var name := if HasName(p) then Text.Trim(Prop(p, "name").value.s) else UnnamedProjectName;
    Project(id, name, NormalizeTodosByDate(Prop(p, "todosByDate"), ProjectMint(mint, index)))
  }

  /** `typeof project.name === "string" && project.name.trim()`. */
  predicate HasName(p: Json) {
    IsString(Prop(p, "name")) && Text.Trim(Prop(p, "name").value.s) != ""
  }

  /** The keys of a plain object, and none for anything else. */
  function ObjectKeys(v: Option<Json>): set<string> {
    if v.Some? && v.value.JObj? then v.value.fields.Keys else {}
  }

  /** The array elements `normalizeProjects` keeps: `project && typeof project === "object"`. */
  predicate ProjectLike(p: Json) {
    Truthy(Some(p)) && IsObjectType(Some(p))
  }

  /** `normalizeProjects`' element rule: arrays and objects become projects, anything else is dropped. */
  function ProjectRule(mint: IdSite -> string): (Json, nat) -> Option<Project> {
    (x: Json, i: nat) => if ProjectLike(x) then Some(NormalizeProject(x, i, mint)) else None
  }

  /** The list part of `normalizeProjects`: at most one project per element, every one well-formed. */
  function NormalizeProjectList(xs: seq<Json>, mint: IdSite -> string): (r: seq<Project>)
    ensures |r| <= |xs|
    ensures forall i :: 0 <= i < |r| ==> WellFormedProject(r[i])
  {
    var r := FilterMap(xs, ProjectRule(mint));
    FilterMapSelects(xs, ProjectRule(mint));
    r
  }

  /**
   `normalizeProjects` is a filter followed by a map: its output holds, in
   input order, the normalised form of exactly the array and object
   elements, each normalised with its own position.
   */
  lemma NormalizeProjectListSelects(xs: seq<Json>, mint: IdSite -> string)
    ensures var r, ks := NormalizeProjectList(xs, mint), KeptIndexes(xs, ProjectRule(mint));
      && |ks| == |r|
      && (forall k :: 0 <= k < |ks| ==>
            ks[k] < |xs| && ProjectLike(xs[ks[k]]) && r[k] == NormalizeProject(xs[ks[k]], ks[k], mint))
      && (forall k, l :: 0 <= k < l < |ks| ==> ks[k] < ks[l])
      && (forall j :: 0 <= j < |xs| && ProjectLike(xs[j]) ==> j in ks)
  {
    FilterMapSelects(xs, ProjectRule(mint));
  }

  /** `normalizeProjects`: a non-array gives no projects, an array its normalised elements. */
  function NormalizeProjects(v: Option<Json>, mint: IdSite -> string): (r: seq<Project>)
    ensures !IsArray(v) ==> r == []
    ensures IsArray(v) ==> r == NormalizeProjectList(v.value.items, mint)
    ensures forall i :: 0 <= i < |r| ==> WellFormedProject(r[i])
  {
    if IsArray(v) then NormalizeProjectList(v.value.items, mint) else []
  }

  /** An array stored where a project should be passes the object test and becomes an empty, unnamed project. */
  lemma ArrayBecomesUnnamedProject(items: seq<Json>, index: nat, mint: IdSite -> string)
    ensures ProjectLike(JArr(items))
    ensures NormalizeProject(JArr(items), index, mint) == Project(mint(ProjectSite(index)), UnnamedProjectName, map[])
  {
  }

  /** `makeDefaultProject`. */
  function DefaultProject(mint: IdSite -> string): (p: Project)
    ensures WellFormedProject(p) && p.todosByDate == map[]
  {
    Project(mint(ProjectSite(0)), DefaultProjectName, map[])
  }

  /** A store of the default project alone, holding `lists`, selected. */
  function SingleProjectStore(mint: IdSite -> string, lists: map<string, seq<Task>>): (s: Store)
    requires forall k :: k in lists ==> AllWellFormed(lists[k])
    ensures ValidStore(s.projects, s.selectedProjectId)
    ensures |s.projects| == 1 && s.projects[0].name == DefaultProjectName && s.projects[0].todosByDate == lists
  {
    var p := DefaultProject(mint).(todosByDate := lists);
    assert [p][0].id == p.id;
    Store([p], p.id)
  }

  /** The store of a first start: one default project with no tasks, selected. */
  function FreshStore(mint: IdSite -> string): (s: Store)
    ensures ValidStore(s.projects, s.selectedProjectId)
    ensures |s.projects| == 1 && s.projects[0].todosByDate == map[]
  {
    SingleProjectStore(mint, map[])
  }

  /** Ids for the tasks of one stored project. */
  function ProjectMint(mint: IdSite -> string, project: nat): (string, nat) -> string {
    (date: string, i: nat) => mint(TaskSite(project, date, i))
  }

  /** The selected id a parsed record asks for, if it is a string. */
  function RequestedSelection(v: Json): Option<string> {
    if IsString(Prop(v, "selectedProjectId")) then Some(Prop(v, "selectedProjectId").value.s) else None
  }

  /** True when a parsed record takes the current-format path of `loadStore`. */
  predicate CurrentFormat(v: Json) {
    v.JObj? && !(Truthy(Prop(v, "todosByDate")) && !Truthy(Prop(v, "projects")))
  }

  /**
   `loadStore`, from the value read from storage and today's date. Every
   path yields at least one project and a selection that names one of them;
   a stored selection is kept exactly when some loaded project has that id.
   */
  function LoadStore(stored: Stored, today: Date, mint: IdSite -> string): (r: Store)
    requires Valid(today)
    ensures ValidStore(r.projects, r.selectedProjectId)
    ensures stored.Missing? || stored.Malformed? ==> r == FreshStore(mint)
    ensures stored.Parsed? && !stored.value.JArr? && !stored.value.JObj? ==> r == FreshStore(mint)
    ensures stored.Parsed? && stored.value.JArr? ==>
      && |r.projects| == 1 && r.projects[0].name == DefaultProjectName
      && r.projects[0].todosByDate
           == map[FormatKey(today) := NormalizeList(stored.value.items, KeyMint(ProjectMint(mint, 0), FormatKey(today)))]
    ensures stored.Parsed? && stored.value.JObj? && !CurrentFormat(stored.value) ==>
      && |r.projects| == 1 && r.projects[0].name == DefaultProjectName
      && r.projects[0].todosByDate == NormalizeTodosByDate(Prop(stored.value, "todosByDate"), ProjectMint(mint, 0))
    ensures stored.Parsed? && CurrentFormat(stored.value) ==>
      var normalized := NormalizeProjects(Prop(stored.value, "projects"), mint);
      && (|normalized| > 0 ==> r.projects == normalized)
      && (|normalized| == 0 ==> r.projects == [DefaultProject(mint)])
    ensures stored.Parsed? && CurrentFormat(stored.value) ==>
      var wanted := RequestedSelection(stored.value);
      && (wanted.Some? && HasProject(r.projects, wanted.value) ==> r.selectedProjectId == wanted.value)
      && (!(wanted.Some? && HasProject(r.projects, wanted.value)) ==> r.selectedProjectId == r.projects[0].id)
  {
    match stored
    case Missing => FreshStore(mint)
    case Malformed => FreshStore(mint)
    case Parsed(v) =>
      if v.JArr? then
        var key := FormatKey(today);
        SingleProjectStore(mint, map[key := NormalizeItems(Some(v), KeyMint(ProjectMint(mint, 0), key))])
      else if !Truthy(Some(v)) || !IsObjectType(Some(v)) then FreshStore(mint)
      else if Truthy(Prop(v, "todosByDate")) && !Truthy(Prop(v, "projects")) then
        SingleProjectStore(mint, NormalizeTodosByDate(Prop(v, "todosByDate"), ProjectMint(mint, 0)))
      else
        var normalized := NormalizeProjects(Prop(v, "projects"), mint);
        var projects := if |normalized| > 0 then normalized else [DefaultProject(mint)];
        var wanted := RequestedSelection(v);
        var hasSelected := wanted.Some? && HasProject(projects, wanted.value);
        Store(projects, if hasSelected then wanted.value else projects[0].id)
  }

  // `saveStore`: the value `JSON.stringify` writes, as `JSON.parse` reads it back.

  function TaskToJson(t: Task): Json {
    JObj(map["id" := JStr(t.id), "text" := JStr(t.text), "completed" := JBool(t.completed),
             "completedAt" := t.completedAt])
  }

  function ListToJson(ts: seq<Task>): Json {
    JArr(seq(|ts|, i requires 0 <= i < |ts| => TaskToJson(ts[i])))
  }

  function DatesToJson(m: map<string, seq<Task>>): Json {
    JObj(map k | k in m :: ListToJson(m[k]))
  }

  function ProjectToJson(p: Project): Json {
    JObj(map["id" := JStr(p.id), "name" := JStr(p.name), "todosByDate" := DatesToJson(p.todosByDate)])
  }

  function ProjectsToJson(ps: seq<Project>): Json {
    JArr(seq(|ps|, i requires 0 <= i < |ps| => ProjectToJson(ps[i])))
  }

  /** The saved object carries exactly the project list and the selected id; no legacy `todosByDate`. */
  function StoreToJson(s: Store): (r: Json)
    ensures r.JObj? && r.fields.Keys == {"projects", "selectedProjectId"}
    ensures Prop(r, "projects") == Some(ProjectsToJson(s.projects))
    ensures Prop(r, "selectedProjectId") == Some(JStr(s.selectedProjectId))
    ensures Prop(r, "todosByDate") == None
  {
    JObj(map["projects" := ProjectsToJson(s.projects), "selectedProjectId" := JStr(s.selectedProjectId)])
  }

  lemma TaskRoundTrip(t: Task, freshId: string)
    requires WellFormed(t)
    ensures NormalizeItem(TaskToJson(t), freshId) == Some(t)
  {
    var j := TaskToJson(t);
    assert Prop(j, "text") == Some(JStr(t.text));
    assert Prop(j, "id") == Some(JStr(t.id));
    assert Prop(j, "completed") == Some(JBool(t.completed));
    assert Prop(j, "completedAt") == Some(t.completedAt);
    Text.TrimTrimmed(t.text);
  }

  lemma ListRoundTrip(ts: seq<Task>, mint: nat -> string)
    requires AllWellFormed(ts)
    ensures NormalizeList(ListToJson(ts).items, mint) == ts
  {
    var xs := ListToJson(ts).items;
    forall i | 0 <= i < |xs|
      ensures ItemRule(mint)(xs[i], i) == Some(ts[i])
    {
      TaskRoundTrip(ts[i], mint(i));
    }
    FilterMapKeepsAll(xs, ItemRule(mint), ts);
  }

  lemma DatesRoundTrip(m: map<string, seq<Task>>, mint: (string, nat) -> string)
    requires forall k :: k in m ==> AllWellFormed(m[k])
    ensures NormalizeTodosByDate(Some(DatesToJson(m)), mint) == m
  {
    var fields := DatesToJson(m).fields;
    assert (map k | k in fields :: NormalizeItems(Some(fields[k]), KeyMint(mint, k))) == m by {
      DateListsRoundTrip(m, mint);
    }
    TodosByDateOfObject(fields, mint);
  }

  lemma DateListsRoundTrip(m: map<string, seq<Task>>, mint: (string, nat) -> string)
    requires forall k :: k in m ==> AllWellFormed(m[k])
    ensures DatesToJson(m).fields.Keys == m.Keys
    ensures forall k :: k in m ==> NormalizeItems(Some(DatesToJson(m).fields[k]), KeyMint(mint, k)) == m[k]
  {
    forall k | k in m
      ensures NormalizeItems(Some(DatesToJson(m).fields[k]), KeyMint(mint, k)) == m[k]
    {
      ListRoundTrip(m[k], KeyMint(mint, k));
    }
  }

  /** On a plain object, each key's list is normalised with that key's ids. */
  lemma TodosByDateOfObject(fields: map<string, Json>, mint: (string, nat) -> string)
    ensures NormalizeTodosByDate(Some(JObj(fields)), mint)
         == map k | k in fields :: NormalizeItems(Some(fields[k]), KeyMint(mint, k))
  {
  }

  lemma ProjectRoundTrip(p: Project, index: nat, mint: IdSite -> string)
    requires WellFormedProject(p)
    ensures ProjectLike(ProjectToJson(p))
    ensures NormalizeProject(ProjectToJson(p), index, mint) == p
  {
    var j := ProjectToJson(p);
    assert Prop(j, "id") == Some(JStr(p.id));
    assert Prop(j, "name") == Some(JStr(p.name));
    assert Prop(j, "todosByDate") == Some(DatesToJson(p.todosByDate));
    Text.TrimTrimmed(p.name);
    DatesRoundTrip(p.todosByDate, ProjectMint(mint, index));
  }

  lemma ProjectListRoundTrip(ps: seq<Project>, mint: IdSite -> string)
    requires forall i :: 0 <= i < |ps| ==> WellFormedProject(ps[i])
    ensures NormalizeProjectList(ProjectsToJson(ps).items, mint) == ps
  {
    var xs := ProjectsToJson(ps).items;
    forall i | 0 <= i < |xs|
      ensures ProjectRule(mint)(xs[i], i) == Some(ps[i])
    {
      ProjectRoundTrip(ps[i], i, mint);
    }
    FilterMapKeepsAll(xs, ProjectRule(mint), ps);
  }

  /**
   Saving and loading again gives back the same store, so loading is
   idempotent on everything it produces.
   */
  lemma SaveLoadRoundTrip(s: Store, today: Date, mint: IdSite -> string)
    requires Valid(today)
    requires ValidStore(s.projects, s.selectedProjectId)
    ensures LoadStore(Parsed(StoreToJson(s)), today, mint) == s
  {
    var j := StoreToJson(s);
    assert Prop(j, "projects") == Some(ProjectsToJson(s.projects));
    assert Prop(j, "selectedProjectId") == Some(JStr(s.selectedProjectId));
    assert Prop(j, "todosByDate") == None;
    ProjectListRoundTrip(s.projects, mint);
  }

  lemma LoadIdempotent(stored: Stored, today: Date, mint: IdSite -> string)
    requires Valid(today)
    ensures var s := LoadStore(stored, today, mint);
      LoadStore(Parsed(StoreToJson(s)), today, mint) == s
  {
    SaveLoadRoundTrip(LoadStore(stored, today, mint), today, mint);
  }
}

=== FILE: projects.dfy ===
/**
 Projects and the store that holds them: the selected-project lookup with its
 fall-back to the first project, the per-date list lookup, and the naming
 rules of project creation and renaming (trimmed, non-empty, unique ignoring
 letter case).
 */
module Projects {
  import Text
  import opened Todos

  /** A project files its task lists under date keys. */
  datatype Project = Project(id: string, name: string, todosByDate: map<string, seq<Task>>)

  /** What is persisted: all projects and the id of the selected one. */
  datatype Store = Store(projects: seq<Project>, selectedProjectId: string)

  /** The name of a project made when there is nothing to load. */
  const DefaultProjectName: string := "기본 프로젝트"

  /** The name given to a loaded project whose name is missing or blank. */
  const UnnamedProjectName: string := "이름 없는 프로젝트"

  predicate WellFormedProject(p: Project) {
    && p.name != "" && Text.IsTrimmed(p.name)
    && forall k :: k in p.todosByDate ==> AllWellFormed(p.todosByDate[k])
  }

  /** Both built-in names are acceptable project names. */
  lemma PlaceholderNamesWellFormed()
    ensures DefaultProjectName != "" && Text.IsTrimmed(DefaultProjectName)
    ensures UnnamedProjectName != "" && Text.IsTrimmed(UnnamedProjectName)
  {
  }

  predicate HasProject(ps: seq<Project>, id: string) {
    exists i :: 0 <= i < |ps| && ps[i].id == id
  }

  /** At least one project, the selection names one of them, and every project is well-formed. */
  predicate ValidStore(projects: seq<Project>, selectedProjectId: string) {
    && |projects| > 0
    && HasProject(projects, selectedProjectId)
    && forall i :: 0 <= i < |projects| ==> WellFormedProject(projects[i])
  }

  /** No two projects have names equal ignoring letter case. */
  predicate NamesUnique(ps: seq<Project>) {
    forall i, j :: 0 <= i < j < |ps| ==> !Text.SameName(ps[i].name, ps[j].name)
  }

  /** `projects.find(p => p.id === id)` as a position; `|ps|` when there is none. */
  function FindProject(ps: seq<Project>, id: string): (r: nat)
    ensures r <= |ps|
    ensures r < |ps| ==> ps[r].id == id
    ensures forall j :: 0 <= j < r ==> ps[j].id != id
  {
    if ps == [] then 0
    else if ps[0].id == id then 0
    else 1 + FindProject(ps[1..], id)
  }

  /** `getSelectedProject`: the first project with the selected id, else the first project. */
  function SelectedIndex(ps: seq<Project>, id: string): (r: nat)
    requires |ps| > 0
    ensures r < |ps|
    ensures HasProject(ps, id) ==> ps[r].id == id && forall j :: 0 <= j < r ==> ps[j].id != id
    ensures !HasProject(ps, id) ==> r == 0
  {
    var i := FindProject(ps, id);
    if i < |ps| then i else 0
  }

  /** `project.todosByDate[key] || []`. */
  function Lookup(m: map<string, seq<Task>>, key: string): (r: seq<Task>)
    ensures key in m ==> r == m[key]
    ensures key !in m ==> r == []
  {
    if key in m then m[key] else []
  }

  /** Why a project name was refused. */
  datatype Rejection = EmptyName | DuplicateName

  datatype Outcome<T> = Accepted(value: T) | Rejected(reason: Rejection)

  /** Some project already has `name`, ignoring case. */
  predicate NameTaken(ps: seq<Project>, name: string) {
    exists j :: 0 <= j < |ps| && Text.SameName(ps[j].name, name)
  }

  /** Some project whose id is not `id` already has `name`, ignoring case. */
  predicate NameTakenByOther(ps: seq<Project>, name: string, id: string) {
    exists j :: 0 <= j < |ps| && ps[j].id != id && Text.SameName(ps[j].name, name)
  }

  /** No project other than the one at `i` has its id. */
  predicate IdUniqueAt(ps: seq<Project>, i: nat)
    requires i < |ps|
  {
    forall j :: 0 <= j < |ps| && j != i ==> ps[j].id != ps[i].id
  }

  /**
   `createProject`: blank names are refused first, then names already taken
   ignoring case; otherwise one project with the trimmed name and no tasks
   is appended.
   */
  function CreateProject(ps: seq<Project>, input: string, id: string): (r: Outcome<seq<Project>>)
    ensures r == Rejected(EmptyName) <==> Text.Trim(input) == ""
    ensures r == Rejected(DuplicateName) <==> Text.Trim(input) != "" && NameTaken(ps, Text.Trim(input))
    ensures r.Accepted? ==> r.value == ps + [Project(id, Text.Trim(input), map[])]
  {
    var trimmed := Text.Trim(input);
    if trimmed == "" then Rejected(EmptyName)
    else if NameTaken(ps, trimmed) then Rejected(DuplicateName)
    else Accepted(ps + [Project(id, trimmed, map[])])
  }

  /**
   `renameProject` on the project at `i`: the same refusals, except that
   projects with the renamed project's id do not count as taken; on success
   only that project's name changes.
   */
  function RenameProject(ps: seq<Project>, i: nat, input: string): (r: Outcome<seq<Project>>)
    requires i < |ps|
    ensures r == Rejected(EmptyName) <==> Text.Trim(input) == ""
    ensures r == Rejected(DuplicateName) <==> Text.Trim(input) != "" && NameTakenByOther(ps, Text.Trim(input), ps[i].id)
    ensures r.Accepted? ==> r.value == ps[i := ps[i].(name := Text.Trim(input))]
  {
    var trimmed := Text.Trim(input);
    if trimmed == "" then Rejected(EmptyName)
    else if NameTakenByOther(ps, trimmed, ps[i].id) then Rejected(DuplicateName)
    else Accepted(ps[i := ps[i].(name := trimmed)])
  }

  /**
   Renaming with only the project at `i` itself exempt from the duplicate
   test, which is what the id comparison achieves whenever ids are unique.
   */
  function RenameProjectAt(ps: seq<Project>, i: nat, input: string): (r: Outcome<seq<Project>>)
    requires i < |ps|
    ensures r == Rejected(EmptyName) <==> Text.Trim(input) == ""
    ensures r == Rejected(DuplicateName) <==>
      Text.Trim(input) != "" && exists j :: 0 <= j < |ps| && j != i && Text.SameName(ps[j].name, Text.Trim(input))
    ensures r.Accepted? ==> r.value == ps[i := ps[i].(name := Text.Trim(input))]
  {
    var trimmed := Text.Trim(input);
    if trimmed == "" then Rejected(EmptyName)
    else if exists j :: 0 <= j < |ps| && j != i && Text.SameName(ps[j].name, trimmed) then Rejected(DuplicateName)
    else Accepted(ps[i := ps[i].(name := trimmed)])
  }

  /** When no other project shares the renamed project's id, both duplicate tests agree. */
  lemma RenameAgreesWhenIdUnique(ps: seq<Project>, i: nat, input: string)
    requires i < |ps| && IdUniqueAt(ps, i)
    ensures RenameProject(ps, i, input) == RenameProjectAt(ps, i, input)
  {
    var trimmed := Text.Trim(input);
    if NameTakenByOther(ps, trimmed, ps[i].id) {
      var j :| 0 <= j < |ps| && ps[j].id != ps[i].id && Text.SameName(ps[j].name, trimmed);
      assert j != i;
    }
  }

  /** Creating a project keeps names unique, and the new project well-formed and selectable. */
  lemma CreateKeepsNamesUnique(ps: seq<Project>, input: string, id: string)
    requires NamesUnique(ps)
    requires CreateProject(ps, input, id).Accepted?
    ensures var qs := CreateProject(ps, input, id).value;
      NamesUnique(qs) && WellFormedProject(qs[|ps|]) && HasProject(qs, id)
  {
    var qs := CreateProject(ps, input, id).value;
    var n := |ps|;
    forall i, j | 0 <= i < j < |qs|
      ensures !Text.SameName(qs[i].name, qs[j].name)
    {
      if j == n {
        assert !Text.SameName(ps[i].name, qs[n].name);
      }
    }
    assert qs[n].id == id;
  }

  /** Renaming keeps names unique, provided no other project shares the renamed project's id. */
  lemma RenameKeepsNamesUnique(ps: seq<Project>, i: nat, input: string)
    requires i < |ps| && NamesUnique(ps) && IdUniqueAt(ps, i)
    requires RenameProject(ps, i, input).Accepted?
    ensures NamesUnique(RenameProject(ps, i, input).value)
  {
    RenameAgreesWhenIdUnique(ps, i, input);
    RenameAtKeepsNamesUnique(ps, i, input);
  }

  /** Renaming with only the renamed project exempt keeps names unique, whatever the ids. */
  lemma RenameAtKeepsNamesUnique(ps: seq<Project>, i: nat, input: string)
    requires i < |ps| && NamesUnique(ps)
    requires RenameProjectAt(ps, i, input).Accepted?
    ensures NamesUnique(RenameProjectAt(ps, i, input).value)
  {
    var qs := RenameProjectAt(ps, i, input).value;
    forall a, b | 0 <= a < b < |qs|
      ensures !Text.SameName(qs[a].name, qs[b].name)
    {
      if a == i {
        assert !Text.SameName(ps[b].name, qs[i].name);
      } else if b == i {
        assert !Text.SameName(ps[a].name, qs[i].name);
      }
    }
  }

  /**
   Two projects stored with the same id: renaming the first to a case
   variant of the second's name is accepted, and the names stop being
   unique.
   */
  lemma RenameRepeatedIdBreaksUniqueness()
    ensures var ps := [Project("a", "X", map[]), Project("a", "Y", map[])];
      && NamesUnique(ps)
      && RenameProject(ps, 0, "y").Accepted?
      && !NamesUnique(RenameProject(ps, 0, "y").value)
  {
    var ps := [Project("a", "X", map[]), Project("a", "Y", map[])];
    assert Text.Lower("X") == "x" && Text.Lower("Y") == "y" && Text.Lower("y") == "y";
    Text.TrimTrimmed("y");
    assert !NameTakenByOther(ps, "y", "a");
    var qs := RenameProject(ps, 0, "y").value;
    assert qs[0].name == "y" && qs[1].name == "Y";
  }

  /** An accepted new project is well-formed, and the projects before it are unchanged. */
  lemma CreateKeepsWellFormed(ps: seq<Project>, input: string, id: string)
    requires forall i :: 0 <= i < |ps| ==> WellFormedProject(ps[i])
    requires CreateProject(ps, input, id).Accepted?
    ensures var qs := CreateProject(ps, input, id).value;
      forall i :: 0 <= i < |qs| ==> WellFormedProject(qs[i])
  {
    var qs := CreateProject(ps, input, id).value;
    forall i | 0 <= i < |qs|
      ensures WellFormedProject(qs[i])
    {
      if i < |ps| {
        assert qs[i] == ps[i];
      }
    }
  }

  /** Renaming keeps every project well-formed and every id in its place. */
  lemma RenameKeepsWellFormed(ps: seq<Project>, i: nat, input: string)
    requires i < |ps| && forall j :: 0 <= j < |ps| ==> WellFormedProject(ps[j])
    requires RenameProject(ps, i, input).Accepted?
    ensures var qs := RenameProject(ps, i, input).value;
      |qs| == |ps| && forall j :: 0 <= j < |qs| ==> WellFormedProject(qs[j]) && qs[j].id == ps[j].id
  {
    var qs := RenameProject(ps, i, input).value;
    forall j | 0 <= j < |qs|
      ensures WellFormedProject(qs[j]) && qs[j].id == ps[j].id
    {
      if j != i {
        assert qs[j] == ps[j];
      }
    }
  }

  /** A second project whose name differs from an existing one only in case is refused. */
  lemma CaseVariantRefused(ps: seq<Project>, id: string)
    requires |ps| > 0 && ps[0].name == "Work"
    ensures CreateProject(ps, "work", id) == Rejected(DuplicateName)
  {
    Text.CaseVariantsCollide();
    Text.TrimTrimmed("work");
    assert Text.SameName(ps[0].name, "work");
  }
}

=== FILE: stats.dfy ===
/**
 The two summaries drawn next to the task list of the selected project: the
 completion bars of the seven days ending at the selected date, with the
 week's overall completion rate, and the tasks completed on each of the
 three days before the selected date.
 */
module Stats {
  import opened Todos
  import opened Projects
  import opened Calendar
  import opened DateKey

  /**
   `total === 0 ? 0 : Math.round((done / total) * 100)` in exact arithmetic:
   the percentage rounded to the nearest whole number, halves rounded up.
   */
  function Percent(done: nat, total: nat): (p: nat)
    ensures total == 0 ==> p == 0
    ensures total > 0 ==> 2 * total * p <= 200 * done + total < 2 * total * (p + 1)
  {
    if total == 0 then 0
    else
      var q := (200 * done + total) / (2 * total);
      DivBounds(200 * done + total, 2 * total);
      q
  }

  /** Euclidean division brackets its dividend. */
  lemma DivBounds(a: nat, b: nat)
    requires b > 0
    ensures b * (a / b) <= a < b * (a / b + 1)
  {
  }

  /** A share of at most the whole is at most 100 percent, and the whole is exactly 100. */
  lemma PercentBounds(done: nat, total: nat)
    requires done <= total
    ensures Percent(done, total) <= 100
    ensures 0 < total && done == total ==> Percent(done, total) == 100
    ensures done == 0 ==> Percent(done, total) == 0
  {
    var p := Percent(done, total);
    if total > 0 {
      var t := 2 * total;
      MulCancel(t, p, 101);
      if done == total {
        MulCancel(t, 100, p + 1);
      }
      if done == 0 {
        MulCancel(t, p, 1);
      }
    }
  }

  /** A positive factor can be cancelled from a strict inequality. */
  lemma MulCancel(a: nat, x: nat, y: nat)
    requires a > 0 && a * x < a * y
    ensures x < y
  {
    if x >= y {
      MulMonotone(a, y, x);
    }
  }

  lemma MulMonotone(a: nat, x: nat, y: nat)
    requires x <= y
    ensures a * x <= a * y
  {
  }

  /** The number of completed tasks of a list. */
  function DoneCount(ts: seq<Task>): (n: nat)
    ensures n <= |ts|
    ensures n + RemainingCount(ts) == |ts|
  {
    RemainingPlusCompleted(ts);
    |Keep(ts, IsDone)|
  }

  /** One bar of the weekly chart: its date key, `done/total` and the rounded percentage. */
  datatype DayStat = DayStat(key: string, done: nat, total: nat, percent: nat)

  datatype WeekStats = WeekStats(days: seq<DayStat>, totalCompleted: nat, totalTasks: nat, rate: nat)

  /** The bar of the list filed under `key`; a date with no list counts as empty. */
  function DayStatOf(lists: map<string, seq<Task>>, key: string): (s: DayStat)
    ensures s.key == key && s.done <= s.total && s.percent <= 100
    ensures s.total == |Lookup(lists, key)| && s.done + RemainingCount(Lookup(lists, key)) == s.total
    ensures s.total == 0 ==> s.percent == 0
  {
    var items := Lookup(lists, key);
    var done := DoneCount(items);
    PercentBounds(done, |items|);
    DayStat(key, done, |items|, Percent(done, |items|))
  }

  function SumDone(ds: seq<DayStat>): nat {
    if ds == [] then 0 else SumDone(ds[..|ds| - 1]) + ds[|ds| - 1].done
  }

  function SumTotal(ds: seq<DayStat>): nat {
    if ds == [] then 0 else SumTotal(ds[..|ds| - 1]) + ds[|ds| - 1].total
  }

  /** When no bar has more done than total tasks, neither has the week. */
  lemma {:induction false} SumDoneAtMostTotal(ds: seq<DayStat>)
    requires forall i :: 0 <= i < |ds| ==> ds[i].done <= ds[i].total
    ensures SumDone(ds) <= SumTotal(ds)
  {
    if ds != [] {
      SumDoneAtMostTotal(ds[..|ds| - 1]);
    }
  }

  /** `getRecentDays(selectedDate, 7).reverse()`: oldest first, ending at the selected date. */
  function WeekWindow(selected: string): (r: seq<string>)
    ensures |r| == 7
    ensures forall i :: 0 <= i < 7 ==> r[i] == AddDaysKey(selected, i - 6)
  {
    var recent := RecentDays(selected, 7);
    seq(7, i requires 0 <= i < 7 => recent[6 - i])
  }

  /** With a canonical selected date, the last bar is the selected date itself. */
  lemma WeekEndsAtSelected(selected: string)
    requires CanonicalKey(selected)
    ensures WeekWindow(selected)[6] == selected
  {
    AddDaysKeyZero(selected);
  }

  /** Each bar's date is the day after the previous bar's, for a selected date in the years 1001 to 9999. */
  lemma WeekConsecutive(d: Date, i: nat)
    requires Valid(d) && 1001 <= d.year <= 9999 && i < 6
    ensures WeekWindow(FormatKey(d))[i + 1] == AddDaysKey(WeekWindow(FormatKey(d))[i], 1)
  {
    ParseFormat(d);
    ShortMoveBack(d, i - 6);
    AddDaysKeyCompose(FormatKey(d), i - 6, 1);
  }

  /**
   `renderWeeklyStats` over the lists of the selected project: seven bars in
   date order, the week's totals as their sums, and the week's rate.
   */
  method WeeklyStats(lists: map<string, seq<Task>>, selected: string) returns (w: WeekStats)
    ensures |w.days| == 7
    ensures forall i :: 0 <= i < 7 ==> w.days[i] == DayStatOf(lists, AddDaysKey(selected, i - 6))
    ensures w.totalCompleted == SumDone(w.days) && w.totalTasks == SumTotal(w.days)
    ensures w.totalCompleted <= w.totalTasks
    ensures w.rate == Percent(w.totalCompleted, w.totalTasks) && w.rate <= 100
  {
    var window := WeekWindow(selected);
    var days := seq(7, i requires 0 <= i < 7 => DayStatOf(lists, window[i]));
    var totalCompleted, totalTasks := Totals(days);
    SumDoneAtMostTotal(days);
    PercentBounds(totalCompleted, totalTasks);
    w := WeekStats(days, totalCompleted, totalTasks, Percent(totalCompleted, totalTasks));
  }

  /** The running sums `totalCompleted += done` and `totalTasks += total` over the bars. */
  method Totals(days: seq<DayStat>) returns (totalCompleted: nat, totalTasks: nat)
    ensures totalCompleted == SumDone(days) && totalTasks == SumTotal(days)
  {
    totalCompleted, totalTasks := 0, 0;
    for i := 0 to |days|
      invariant totalCompleted == SumDone(days[..i]) && totalTasks == SumTotal(days[..i])
    {
      assert days[..i + 1][..i] == days[..i];
      totalCompleted := totalCompleted + days[i].done;
      totalTasks := totalTasks + days[i].total;
    }
    assert days[..|days|] == days;
  }

  /** How many days back `renderRecentCompleted` looks by default. */
  const HistoryDays: nat := 3

  /** One line of the recent-completions list: a task and how many days before the selected date it was filed. */
  datatype HistoryEntry = HistoryEntry(offset: int, task: Task)

  /** The completed tasks filed `offset` days before the selected date, in stored order, every copy kept. */
  function CompletedOn(lists: map<string, seq<Task>>, selected: string, offset: int): (r: seq<Task>)
    ensures forall t :: t in r <==> t in Lookup(lists, AddDaysKey(selected, -offset)) && t.completed
    ensures Subsequence(r, Lookup(lists, AddDaysKey(selected, -offset)))
    ensures forall t :: multiset(r)[t] == if t.completed then multiset(Lookup(lists, AddDaysKey(selected, -offset)))[t] else 0
  {
    Keep(Lookup(lists, AddDaysKey(selected, -offset)), IsDone)
  }

  /** The entries of one day: one per task, in list order. */
  function Tag(offset: int, ts: seq<Task>): (r: seq<HistoryEntry>)
    ensures |r| == |ts| && forall i :: 0 <= i < |ts| ==> r[i] == HistoryEntry(offset, ts[i])
    ensures forall e :: e in r <==> e.offset == offset && e.task in ts
  {
    if ts == [] then [] else [HistoryEntry(offset, ts[0])] + Tag(offset, ts[1..])
  }

  /**
   The loop of `renderRecentCompleted` over any source of per-day lists:
   for offsets 1 to `days` in turn, the tasks of that day, tagged.
   */
  function Gather(day: int -> seq<Task>, days: nat): (r: seq<HistoryEntry>)
    ensures forall e :: e in r ==> 1 <= e.offset <= days && e.task in day(e.offset)
    ensures forall o, t :: 1 <= o <= days && t in day(o) ==> HistoryEntry(o, t) in r
    ensures forall i, j :: 0 <= i < j < |r| ==> r[i].offset <= r[j].offset
  {
    if days == 0 then []
    else
      var earlier := Gather(day, days - 1);
      var tagged := Tag(days, day(days));
      assert forall i :: 0 <= i < |earlier| ==> earlier[i] in earlier && earlier[i].offset < days;
      assert forall i :: 0 <= i < |tagged| ==> tagged[i].offset == days;
      earlier + tagged
  }

  /** The completed tasks of each day before the selected date, by offset. */
  function CompletedDays(lists: map<string, seq<Task>>, selected: string): int -> seq<Task> {
    (o: int) => CompletedOn(lists, selected, o)
  }

  /**
   `renderRecentCompleted(days)`: for offsets 1 to `days` in turn, the
   completed tasks filed that many days before the selected date, each day
   in stored order. The selected date itself (offset 0) is never included.
   */
  function RecentCompleted(lists: map<string, seq<Task>>, selected: string, days: nat): (r: seq<HistoryEntry>)
    ensures forall e :: e in r ==>
      1 <= e.offset <= days && e.task.completed && e.task in Lookup(lists, AddDaysKey(selected, -e.offset))
    ensures forall o, t ::
      1 <= o <= days && t in Lookup(lists, AddDaysKey(selected, -o)) && t.completed ==> HistoryEntry(o, t) in r
    ensures forall i, j :: 0 <= i < j < |r| ==> r[i].offset <= r[j].offset
    ensures days == 0 ==> r == []
    ensures days > 0 ==>
      r == RecentCompleted(lists, selected, days - 1) + Tag(days, CompletedOn(lists, selected, days))
  {
    Gather(CompletedDays(lists, selected), days)
  }

  /** `Gather` finds nothing exactly when every day it looks at is empty. */
  lemma GatherEmptyIff(day: int -> seq<Task>, days: nat)
    ensures Gather(day, days) == [] <==> forall o :: 1 <= o <= days ==> day(o) == []
  {
    var r := Gather(day, days);
    if r != [] {
      assert r[0] in r;
    }
    if exists o :: 1 <= o <= days && day(o) != [] {
      var o :| 1 <= o <= days && day(o) != [];
      var c := day(o);
      assert c[0] in c;
      assert HistoryEntry(o, c[0]) in r;
    }
  }

  /** The empty-state message shows exactly when no earlier day has a completed task. */
  lemma HistoryEmptyIff(lists: map<string, seq<Task>>, selected: string, days: nat)
    ensures RecentCompleted(lists, selected, days) == [] <==>
      forall o :: 1 <= o <= days ==> CompletedOn(lists, selected, o) == []
  {
    var day := CompletedDays(lists, selected);
    GatherEmptyIff(day, days);
    assert RecentCompleted(lists, selected, days) == Gather(day, days);
    assert forall o :: day(o) == CompletedOn(lists, selected, o);
  }

  /**
   None of the days the history looks at is the selected date, for a
   selected date in the years 1001 to 9999 and offsets up to a year.
   */
  lemma HistorySkipsSelected(d: Date, offset: int)
    requires Valid(d) && 1001 <= d.year <= 9999 && 1 <= offset <= 365
    ensures AddDaysKey(FormatKey(d), -offset) != FormatKey(d)
  {
    var e := AddDays(d, -offset);
    ParseFormat(d);
    ShortMoveBack(d, -offset);
    if FormatKey(e) == FormatKey(d) {
      FormatKeyInjective(e, d);
    }
  }
}

=== FILE: text.dfy ===
/**
 The two string operations the task tracker relies on: `String.prototype.trim`
 (task texts and project names) and `toLowerCase` (case-insensitive project
 name comparison).
 */
module Text {

  /** The ECMAScript WhiteSpace and LineTerminator code points that `trim` removes. */
  predicate IsSpace(c: char) {
    || c == '\t' || c == '\n' || c == '\U{000B}' || c == '\U{000C}' || c == '\r' || c == ' '
    || c == '\U{00A0}' || c == '\U{1680}' || ('\U{2000}' <= c <= '\U{200A}')
    || c == '\U{2028}' || c == '\U{2029}' || c == '\U{202F}' || c == '\U{205F}'
    || c == '\U{3000}' || c == '\U{FEFF}'
  }

  /** Every character of `s` in positions `lo..hi` is whitespace. */
  predicate SpaceBetween(s: string, lo: int, hi: int)
    requires 0 <= lo <= hi <= |s|
  {
    forall i :: lo <= i < hi ==> IsSpace(s[i])
  }

  predicate AllSpace(s: string) {
    SpaceBetween(s, 0, |s|)
  }

  /** Neither end of `s` is whitespace. */
  predicate IsTrimmed(s: string) {
    s == [] || (!IsSpace(s[0]) && !IsSpace(s[|s| - 1]))
  }

  /** The length of the longest all-whitespace prefix. */
  function LeadingSpace(s: string): (n: nat)
    ensures n <= |s| && SpaceBetween(s, 0, n)
    ensures n < |s| ==> !IsSpace(s[n])
  {
    if |s| > 0 && IsSpace(s[0]) then
      var n := 1 + LeadingSpace(s[1..]);
      assert forall i :: 1 <= i < n ==> s[i] == s[1..][i - 1];
      n
    else 0
  }

  /** Where the longest all-whitespace suffix begins. */
  function TrailingStart(s: string): (n: nat)
    ensures n <= |s| && SpaceBetween(s, n, |s|)
    ensures n > 0 ==> !IsSpace(s[n - 1])
  {
    if |s| > 0 && IsSpace(s[|s| - 1]) then
      var n := TrailingStart(s[..|s| - 1]);
      assert forall i :: n <= i < |s| - 1 ==> s[i] == s[..|s| - 1][i];
      n
    else |s|
  }

  /**
   `s.trim()`: what lies between the leading and the trailing whitespace;
   nothing at all when `s` is whitespace only.
   */
  function Trim(s: string): (r: string)
    ensures IsTrimmed(r)
    ensures r == [] <==> AllSpace(s)
    ensures r != [] ==> r == s[LeadingSpace(s)..TrailingStart(s)]
  {
    var lo, hi := LeadingSpace(s), TrailingStart(s);
    if lo == |s| then []
    else
      assert lo < hi;
      s[lo..hi]
  }

  /** Trimming an already trimmed string changes nothing. */
  lemma TrimTrimmed(s: string)
    requires IsTrimmed(s)
    ensures Trim(s) == s
  {
    if s != [] {
      assert LeadingSpace(s) == 0 && TrailingStart(s) == |s|;
      assert !AllSpace(s) by {
        assert !IsSpace(s[0]);
      }
    }
  }

  lemma TrimIdempotent(s: string)
    ensures Trim(Trim(s)) == Trim(s)
  {
    TrimTrimmed(Trim(s));
  }

  /** ASCII `toLowerCase`; other letters are left as they are. */
  function LowerChar(c: char): (r: char)
    ensures 'A' <= c <= 'Z' ==> 'a' <= r <= 'z'
    ensures !('A' <= c <= 'Z') ==> r == c
  {
    if 'A' <= c <= 'Z' then (c as int - 'A' as int + 'a' as int) as char else c
  }

  function Lower(s: string): (r: string)
    ensures |r| == |s|
    ensures forall i :: 0 <= i < |s| ==> r[i] == LowerChar(s[i])
  {
    seq(|s|, i requires 0 <= i < |s| => LowerChar(s[i]))
  }

  /** `a.toLowerCase() === b.toLowerCase()`. */
  predicate SameName(a: string, b: string) {
    Lower(a) == Lower(b)
  }

  /** Names that differ only in ASCII letter case collide. */
  lemma CaseVariantsCollide()
    ensures SameName("Work", "work")
    ensures !SameName("Work", "Home")
  {
    assert Lower("Work") == "work";
    assert Lower("Home")[0] == 'h';
  }
}

=== FILE: todos.dfy ===
/**
 Tasks and the per-date task list: the filter view, the remaining count and
 the five list mutations (add, toggle, rename, delete, clear completed). The
 clock (`Date.now()`) and the id source arrive as parameters.
 */
module Todos {
  import opened Json
  import Text

  /** `completedAt` keeps whatever value was stored; the model never inspects it. */
  datatype Task = Task(id: string, text: string, completed: bool, completedAt: Json)

  /** The three filter buttons; any other filter value behaves as `All`. */
  datatype Filter = All | Active | Completed

  /**
   The shape every stored task keeps: trimmed non-empty text, no completion
   time unless completed, and a completion time that is `null` or truthy.
   */
  predicate WellFormed(t: Task) {
    && t.text != "" && Text.IsTrimmed(t.text)
    && (!t.completed ==> t.completedAt == JNull)
    && (t.completedAt == JNull || Truthy(Some(t.completedAt)))
  }

  predicate AllWellFormed(ts: seq<Task>) {
    forall i :: 0 <= i < |ts| ==> WellFormed(ts[i])
  }

  /** `a` is `b` with some elements removed and the rest in their original order. */
  ghost predicate Subsequence(a: seq<Task>, b: seq<Task>)
    decreases |b|
  {
    if a == [] then true
    else if b == [] then false
    else (a[0] == b[0] && Subsequence(a[1..], b[1..])) || Subsequence(a, b[1..])
  }

  predicate IsActive(t: Task) {
    !t.completed
  }

  predicate IsDone(t: Task) {
    t.completed
  }

  /** `ts.filter(p)`. */
  function Keep(ts: seq<Task>, p: Task -> bool): (r: seq<Task>)
    ensures |r| <= |ts|
    ensures forall t :: t in r <==> t in ts && p(t)
    ensures forall t :: multiset(r)[t] == if p(t) then multiset(ts)[t] else 0
    ensures Subsequence(r, ts)
  {
    if ts == [] then []
    else
      assert ts == [ts[0]] + ts[1..];
      if p(ts[0]) then [ts[0]] + Keep(ts[1..], p)
      else Keep(ts[1..], p)
  }

  /**
   `getVisibleTodos`: "all" shows the list as it is; the other two filters
   show, in list order, every copy of exactly the uncompleted (respectively
   completed) tasks.
   */
  function Visible(ts: seq<Task>, f: Filter): (r: seq<Task>)
    ensures f == All ==> r == ts
    ensures Subsequence(r, ts)
    ensures f == Active ==> forall t :: multiset(r)[t] == if !t.completed then multiset(ts)[t] else 0
    ensures f == Completed ==> forall t :: multiset(r)[t] == if t.completed then multiset(ts)[t] else 0
  {
    SubsequenceOfSelf(ts);
    match f
    case All => ts
    case Active => Keep(ts, IsActive)
    case Completed => Keep(ts, IsDone)
  }

  /** Every list is a subsequence of itself. */
  lemma {:induction false} SubsequenceOfSelf(ts: seq<Task>)
    ensures Subsequence(ts, ts)
    decreases |ts|
  {
    if ts != [] {
      SubsequenceOfSelf(ts[1..]);
    }
  }

  /** The number `updateCount` shows: tasks not yet completed; zero exactly when every task is completed. */
  function RemainingCount(ts: seq<Task>): (n: nat)
    ensures n <= |ts|
    ensures n == 0 <==> forall i :: 0 <= i < |ts| ==> ts[i].completed
  {
    var r := Keep(ts, IsActive);
    assert r != [] ==> r[0] in r;
    assert forall i :: 0 <= i < |ts| && !ts[i].completed ==> ts[i] in r;
    |r|
  }

  /** Every task is either remaining or completed, never both. */
  lemma {:induction false} RemainingPlusCompleted(ts: seq<Task>)
    ensures RemainingCount(ts) + |Visible(ts, Completed)| == |ts|
  {
    if ts != [] {
      RemainingPlusCompleted(ts[1..]);
    }
  }

  /** The views keep well-formed lists well-formed. */
  lemma KeepWellFormed(ts: seq<Task>, p: Task -> bool)
    requires AllWellFormed(ts)
    ensures AllWellFormed(Keep(ts, p))
  {
    var r := Keep(ts, p);
    forall i | 0 <= i < |r|
      ensures WellFormed(r[i])
    {
      assert r[i] in r;
    }
  }

  /** `makeTodo`: a fresh, not completed task. */
  function NewTodo(id: string, text: string): (t: Task)
    ensures !t.completed && t.completedAt == JNull
    ensures Text.IsTrimmed(text) && text != "" ==> WellFormed(t)
  {
    Task(id, text, false, JNull)
  }

  /** `addTodo`: the new task goes in front; the old list follows unchanged. */
  function AddTodo(ts: seq<Task>, id: string, text: string): (r: seq<Task>)
    ensures |r| == |ts| + 1 && r[1..] == ts
    ensures r[0].id == id && r[0].text == text && !r[0].completed && r[0].completedAt == JNull
  {
    [NewTodo(id, text)] + ts
  }

  /** Adding a task with trimmed, non-empty text keeps a list well-formed. */
  lemma AddWellFormed(ts: seq<Task>, id: string, text: string)
    requires AllWellFormed(ts) && text != "" && Text.IsTrimmed(text)
    ensures AllWellFormed(AddTodo(ts, id, text))
  {
    var r := AddTodo(ts, id, text);
    forall i | 1 <= i < |r|
      ensures WellFormed(r[i])
    {
      assert r[i] == ts[i - 1];
    }
  }

  /** Flipping one task: the completion time is `now` when it becomes completed, `null` otherwise. */
  function Toggle(t: Task, now: int): (r: Task)
    ensures r.id == t.id && r.text == t.text && r.completed == !t.completed
    ensures r.completed ==> r.completedAt == JNum(now as real)
    ensures !r.completed ==> r.completedAt == JNull
  {
    var completed := !t.completed;
    t.(completed := completed, completedAt := if completed then JNum(now as real) else JNull)
  }

  /** `toggleTodo`: same length and order; only tasks with the given id change. */
  function ToggleTodo(ts: seq<Task>, id: string, now: int): (r: seq<Task>)
    ensures |r| == |ts|
    ensures forall i :: 0 <= i < |ts| && ts[i].id != id ==> r[i] == ts[i]
    ensures forall i :: 0 <= i < |ts| && ts[i].id == id ==>
      r[i].id == id && r[i].text == ts[i].text && r[i].completed == !ts[i].completed
      && r[i].completedAt == (if r[i].completed then JNum(now as real) else JNull)
  {
    seq(|ts|, i requires 0 <= i < |ts| => if ts[i].id == id then Toggle(ts[i], now) else ts[i])
  }

  predicate HasId(ts: seq<Task>, id: string) {
    exists i :: 0 <= i < |ts| && ts[i].id == id
  }

  /** Toggling an id that is not in the list changes nothing. */
  lemma ToggleUnknownId(ts: seq<Task>, id: string, now: int)
    requires !HasId(ts, id)
    ensures ToggleTodo(ts, id, now) == ts
  {
  }

  /** Toggling keeps a list well-formed, given a clock reading that is not zero. */
  lemma ToggleWellFormed(ts: seq<Task>, id: string, now: int)
    requires AllWellFormed(ts) && now != 0
    ensures AllWellFormed(ToggleTodo(ts, id, now))
  {
  }

  /**
   Toggling twice restores every completion flag, and restores an
   uncompleted task exactly; a completed task comes back with the second
   clock reading.
   */
  lemma ToggleTwice(ts: seq<Task>, id: string, a: int, b: int)
    requires AllWellFormed(ts)
    ensures var r := ToggleTodo(ToggleTodo(ts, id, a), id, b);
      && |r| == |ts|
      && (forall i :: 0 <= i < |ts| ==> r[i].completed == ts[i].completed)
      && (forall i :: 0 <= i < |ts| && !ts[i].completed ==> r[i] == ts[i])
      && (forall i :: 0 <= i < |ts| && ts[i].completed && ts[i].id == id ==> r[i].completedAt == JNum(b as real))
  {
  }

  /**
   `renameTodo`: `None` when nothing changes (no task has the id, or the new
   text is blank); otherwise only the text of the tasks with that id
   changes, to the trimmed input, each in its place.
   */
  function RenameTodo(ts: seq<Task>, id: string, input: string): (r: Option<seq<Task>>)
    ensures r.None? <==> !HasId(ts, id) || Text.Trim(input) == ""
    ensures r.Some? ==> |r.value| == |ts|
    ensures r.Some? ==> forall i :: 0 <= i < |ts| ==>
      r.value[i] == (if ts[i].id == id then ts[i].(text := Text.Trim(input)) else ts[i])
  {
    if !HasId(ts, id) then None
    else
      var trimmed := Text.Trim(input);
      if trimmed == "" then None
      else Some(seq(|ts|, i requires 0 <= i < |ts| => if ts[i].id == id then ts[i].(text := trimmed) else ts[i]))
  }

  /** Renaming keeps a list well-formed and keeps every id and completion state in its place. */
  lemma RenameWellFormed(ts: seq<Task>, id: string, input: string)
    requires AllWellFormed(ts) && RenameTodo(ts, id, input).Some?
    ensures var r := RenameTodo(ts, id, input).value;
      && AllWellFormed(r)
      && forall i :: 0 <= i < |ts| ==> r[i].id == ts[i].id && r[i].completed == ts[i].completed
  {
  }

  /** `deleteTodo`: an order-preserving sublist holding exactly the tasks with other ids. */
  function DeleteTodo(ts: seq<Task>, id: string): (r: seq<Task>)
    ensures Subsequence(r, ts)
    ensures forall t :: t in r <==> t in ts && t.id != id
    ensures forall t :: multiset(r)[t] == if t.id != id then multiset(ts)[t] else 0
    ensures !HasId(r, id)
  {
    var r := Keep(ts, (t: Task) => t.id != id);
    assert forall i :: 0 <= i < |r| ==> r[i] in r;
    r
  }

  /** `clearCompleted`: exactly the tasks the "active" filter shows. */
  function ClearCompleted(ts: seq<Task>): (r: seq<Task>)
    ensures r == Visible(ts, Active)
    ensures forall t :: t in r <==> t in ts && !t.completed
    ensures forall t :: multiset(r)[t] == if !t.completed then multiset(ts)[t] else 0
  {
    Keep(ts, IsActive)
  }
}
